=== FILE: README.md ===
# Open campaign data API: query, account and formatting core in Dafny

This project models four modules of the campaign-finance data service:

* `tracer_db_facade` turns an abstract Query into a document-store `find`. A Query has a target collection, named parameters, an offset and a result limit. The facade produces a selector plus `{skip, limit}` options. It uses a per-collection whitelist, `ALLOWED_FIELDS`, mapping each allowed parameter to the document field it constrains and the operator it applies (equality by default). It then streams the results to the `onNext`/`onEnd`/`onError` callbacks.
* `account_db_facade` serves the account and usage databases. Its operations are:
  * look an account up by email or by API key;
  * upsert an account by email;
  * append a usage record;
  * find a key's usage records inside a time window;
  * remove a key's old usage records, optionally sparing records that carry an error.
* `account_manager` decorates the facade:
  * get-or-create an account by email, with a fresh random API key;
  * a per-minute query throttle (`MAX_QPM`);
  * usage logging with retention (`LOG_ENTRY_LIFETIME_MINUTES`).
* `data_formatter` projects a corpus of documents onto a field list. It serialises the result as CSV or as a JSON object labelled by the caller, and `format` dispatches by format name.

The module bodies in the repository are empty stubs. The behaviour modelled here is what their doc comments and the nodeunit suites under `tests/` require. Where the suites and the doc comments leave a choice open, the choice is listed below.

Layout:

| file | contents |
|---|---|
| `documents.dfy` | `Base` (Option, Result); `Documents` (values, documents, selectors and what it means for a document to match one) |
| `document_store.dfy` | `DocumentStore`: find, findOne, update-with-upsert, remove, and the skip/limit page, over a collection held as a sequence |
| `tracer_db_facade.dfy` | `TracerDbFacade`: query translation and execution |
| `account_db_facade.dfy` | `AccountDbFacade`: the account and usage store operations, each returning the request it issues, its result and the store afterwards |
| `account_manager.dfy` | `AccountManager`: each operation returns the facade calls it makes, in order, with its result and the store afterwards |
| `text.dfy` | `Text`: join/split and decimal integers, used by the CSV writer |
| `data_formatter.dfy` | `DataFormatter`: CSV and JSON output, the readers that invert them, and the dispatch |

Modelling choices:

* The store is abstracted to collections of documents.
* Timestamps are integers, in milliseconds.
* The clock is a `now` parameter.
* The random key generator is a supplied sequence of candidate keys.
* A read failure of the result stream is a `Fault` parameter, giving the number of records delivered before it.
* JSON output is a value tree rather than text.

## Model

| member | source | states |
|---|---|---|
| DocumentStore.Find | tests/tracer_db_facade_test.js:98-146 | a record is in the result iff it is in the collection and matches; the result is no longer than the collection |
| DocumentStore.FindAppend | tests/tracer_db_facade_test.js:98-146 | find keeps collection order and multiplicity: appending a record to the collection appends it to the result exactly when it matches |
| DocumentStore.RemoveMatching | tests/account_db_facade_test.js:285-306 | a remove keeps exactly the records that do not match the selector |
| DocumentStore.FindFirst | tests/account_db_facade_test.js:97-114 | findOne gives the first matching record; it gives nothing iff no record matches |
| DocumentStore.UpdateFirst | tests/account_db_facade_test.js:150-173 | an update replaces the first matching record and leaves every other position alone; with no match it appends only when upsert is set |
| DocumentStore.PageBounds | tests/tracer_db_facade_test.js:159-210 | a page with a positive limit holds at most `limit` results (a limit of 0 means no limit); every page ends within the results, and each entry is the result at its offset after the skipped ones |
| DocumentStore.PagesConcatenate | tests/tracer_db_facade_test.js:159-210 | for positive limits, consecutive pages (offset advanced by the limit) concatenate to the single larger page, so paging visits every result once, in order |
| DocumentStore.FindRemovePartition | tests/account_db_facade_test.js:285-338 | find and remove with the same selector split the collection: their sizes add up and their multisets sum to the collection's |
| TracerDbFacade.Merge | tests/tracer_db_facade_test.js:104-113 | writing one operator of one field sets just that (field, operator) entry; every other field and operator keeps its constraint |
| TracerDbFacade.BuildSelector | tests/tracer_db_facade_test.js:42-48 | the selector is built iff every parameter is whitelisted; otherwise the error names an unknown parameter; each (field, operator) holds the value of the last parameter that targets it |
| TracerDbFacade.LastValueSource | tests/tracer_db_facade_test.js:42-48 | every value in the selector comes from some whitelisted parameter that targets that field and operator |
| TracerDbFacade.LastValueCovers | tests/tracer_db_facade_test.js:42-48 | every whitelisted parameter contributes a constraint on its field under its operator |
| TracerDbFacade.SelectorWithinWhitelist | tests/tracer_db_facade_test.js:42-48 | every selector key is the dbField of some whitelisted parameter, and every parameter's dbField is constrained |
| TracerDbFacade.TranslateQuery | tests/tracer_db_facade_test.js:273-297 | an unknown collection is refused; translation succeeds iff the collection and all parameters are whitelisted; skip is the offset (default 0) and limit the resultLimit (default `DEFAULT_RESULT_LIMIT`); the selector is the one built from the collection's whitelist and the parameters; a refusal for a known collection names a parameter of the query that the whitelist lacks |
| TracerDbFacade.TranslateWithinWhitelist | tests/tracer_db_facade_test.js:42-48 | every field an accepted query's selector constrains is the dbField of some whitelist entry of the target collection |
| TracerDbFacade.ExecuteQuery | tracer_db_facade.js:12-31 | a refused query issues no request and fires only `onError` with the refusal; an accepted query issues exactly its translated request, and without a read fault `onNext` receives each result of that request in order, followed by `onEnd` |
| TracerDbFacade.ExecuteQueryDelivers | tracer_db_facade.js:12-31 | without a fault, `onNext` receives exactly the page of matching records, in order; with a fault, a prefix of it; every delivered record is in the collection and matches; `onEnd` fires iff there is no fault |
| TracerDbFacade.CallbackProtocol | tracer_db_facade.js:12-31 | only `onNext` calls precede a single final `onEnd` or `onError`; `onEnd` iff the query was accepted and read without fault; a refused query fires only `onError` |
| TracerDbFacade.RangeParamsMerge | tests/tracer_db_facade_test.js:98-146 | `minAmount` and `maxAmount` merge into `{amount: {$gte, $lte}}` with options `{skip: 0, limit: 50}` |
| TracerDbFacade.EqualityParamWrapped | tests/tracer_db_facade_test.js:222-262 | a parameter whose entry names no operator becomes `{name: {$eq: value}}` |
| TracerDbFacade.RangeSelectorMeaning | tests/tracer_db_facade_test.js:104-106 | the range selector matches a document iff its amount lies between the bounds, inclusive |
| AccountDbFacade.AccountSelector | account_db_facade.js:18-49 | the lookup selector `{email}` or `{apiKey}` matches an account iff that field of the account has the value looked up |
| AccountDbFacade.WindowSelector | tests/account_db_facade_test.js:240-276 | the window selector matches a usage record iff it has the key and `start < createdOn < end` |
| AccountDbFacade.ExpirySelector | account_db_facade.js:112-131 | the sweep selector matches iff the record has the key, predates `end`, and either `removeErrors` is set or the record has no error |
| AccountDbFacade.GetUserByEmail | account_db_facade.js:18-32 | findOne on `accounts` by email; the result is an account with that email from the store, absent iff none exists, and the one that exists when emails are unique; nothing changes |
| AccountDbFacade.GetUserByAPIKey | account_db_facade.js:35-49 | findOne on `accounts` by key; present iff some account owns the key, and that account when keys are unique; nothing changes |
| AccountDbFacade.PutUser | account_db_facade.js:52-67 | an upsert by email that resolves to the account; afterwards it is stored, accounts with other emails are unchanged, usages are untouched, and, when emails were unique before, it is the only account with its email |
| AccountDbFacade.PutUserEffect | tests/account_db_facade_test.js:150-173 | the upsert stores the account, leaves other emails alone and keeps emails unique |
| AccountDbFacade.ReplaceSameEmail | tests/account_db_facade_test.js:150-173 | replacing the record with the same email keeps every other email's records and keeps emails unique |
| AccountDbFacade.AppendNewEmail | tests/account_db_facade_test.js:150-173 | appending an account with a new email keeps emails unique |
| AccountDbFacade.PutUserKeepsKeysUnique | account_db_facade.js:52-67 | an upsert whose key is not held by another email keeps API keys unique |
| AccountDbFacade.ReportUsage | account_db_facade.js:70-91 | one insert into `usages` of a record with the key, the query, the error and `createdOn = now`; accounts and older records are unchanged |
| AccountDbFacade.FindAPIKeyUsage | account_db_facade.js:94-109 | a find on `usages` whose result is the key's records inside the open window, in stored order; nothing changes |
| AccountDbFacade.FindIsWindow | tests/account_db_facade_test.js:240-276 | the store's find with the window selector equals the reference window |
| AccountDbFacade.WindowMembers | tests/account_db_facade_test.js:240-276 | a record is in the window iff it is stored, has the key, and lies strictly between start and end |
| AccountDbFacade.RemoveOldUsageRecords | account_db_facade.js:112-131 | a remove on `usages`; a record survives iff it is not an expired record of that key (error records are spared unless `removeErrors`); accounts unchanged |
| AccountDbFacade.RemoveIsSurviving | tests/account_db_facade_test.js:285-338 | the store's remove with the sweep selector equals the reference survivor list |
| AccountDbFacade.ReportedUsageIsFound | tests/account_db_facade_test.js:182-201 | a record just reported is found by a window query iff `start < now < end` |
| AccountDbFacade.SweepKeepsErrorRecords | tests/account_db_facade_test.js:315-338 | a sweep without `removeErrors` keeps every record that has an error |
| AccountManager.LookupDecidesOwnership | account_db_facade.js:35-49 | the key lookup resolves to null exactly when no account owns the key |
| AccountManager.FreshKey | account_manager.js:14-28 | key search looks candidates up by key, in order, and stops at the first one no account owns; it fails only when every candidate is taken |
| AccountManager.GetOrCreateUserByEmail | account_manager.js:14-28 | an existing account is returned after one lookup, with no write; otherwise the candidate keys are looked up in order, and the first key nobody owns goes into a new account that is written by `putUser` and returned; the store afterwards is exactly that upsert's effect; unique emails and keys are preserved |
| AccountManager.CreateWithFirstFreeKey | tests/account_manager_test.js:32-63 | a new email and a free first candidate give exactly: email lookup, key lookup, putUser of the new account |
| AccountManager.CanFulfillQueryWithThrottle | account_manager.js:31-44 | one usage lookup over `(now - 60000, now)`; the query is allowed iff fewer than `MAX_QPM` of the key's records fall in that minute |
| AccountManager.WindowCount | tests/account_manager_test.js:170-205 | the size of the usage lookup equals the reference count of the key's records in the last minute |
| AccountManager.WindowOfAppend | tests/account_manager_test.js:170-205 | a record appended to the log adds to the window exactly when it belongs to it |
| AccountManager.OneRecentUseAllowed | tests/account_manager_test.js:106-126 | with `MAX_QPM = 2`, one use in the last minute allows the query |
| AccountManager.TwoRecentUsesRefused | tests/account_manager_test.js:138-158 | with `MAX_QPM = 2`, two uses in the last minute refuse it |
| AccountManager.UpdateAccountLog | account_manager.js:47-54 | report the usage, then sweep the key's error-free records older than the lifetime; the accounts are unchanged, and a usage record survives iff it is the new record or it was stored and is not an expired error-free record of the key; so all error records and other keys' records survive |
| AccountManager.SurvivingAppend | tests/account_manager_test.js:214-242 | the sweep treats an appended record on its own: it survives iff it is not expired |
| AccountManager.SweepPreservesWindow | tests/account_manager_test.js:251-291 | a sweep whose cutoff is no later than the throttle window's start leaves every key's recent count unchanged |
| AccountManager.LoggingKeepsThrottle | tests/account_manager_test.js:214-291 | with a lifetime of at least a minute, at any later time every key's recent-use count after logging equals that of the unswept log, so the sweep never changes a throttle decision |
| Text.SplitJoin | tests/data_formatter_test.js:26-30 | for a non-empty list of parts none of which contains the separator, splitting their join on the separator gives the parts back |
| Text.IntRoundTrip | tests/data_formatter_test.js:28-29 | a number written in decimal parses back to itself |
| DataFormatter.CellRoundTrip | tests/data_formatter_test.js:28-29 | each cell (bare number, quoted string, `null`, empty) reads back as the value it was written from |
| DataFormatter.CsvLines | tests/data_formatter_test.js:26-30 | whenever no field name and no string value contains a newline (commas allowed, any number of fields), the output's newline-separated lines are exactly the header and the rows, with no trailing newline |
| DataFormatter.RowRoundTrip | tests/data_formatter_test.js:28-29 | for a non-empty field list whose string values are free of commas and newlines, a row read back cell by cell gives the document's values for the requested fields |
| DataFormatter.CsvRoundTrip | tests/data_formatter_test.js:19-36 | about the CSV writer `FormatAsCSV`: the CSV reads back as the field list for a header and, cell by cell, the requested fields of each document in order |
| DataFormatter.OtherFieldsIgnored | tests/data_formatter_test.js:21-56 | fields outside the list (the suites' `field3`) never affect the output: documents that agree on the listed fields give the same CSV cells and the same JSON projection |
| DataFormatter.CsvIgnoresLabel | data_formatter.js:19-34 | the CSV output does not depend on the label |
| DataFormatter.DocRoundTrip | data_formatter.js:37-52 | a document written as a JSON object reads back as itself |
| DataFormatter.JsonRoundTrip | data_formatter.js:37-52 | about the JSON writer `FormatAsJSON`: the JSON object's only property is the label, and reading it gives back the corpus projected onto the fields, in order |
| DataFormatter.ProjectPair | tests/data_formatter_test.js:47-56 | projecting onto two present fields keeps just those two |
| DataFormatter.Format | data_formatter.js:12-16 | `csv` dispatches to the CSV writer and `json` to the JSON writer; any other name is an error naming it |
| DataFormatter.CsvExample | tests/data_formatter_test.js:19-36 | the suite's corpus in CSV is `field1,field2`, `1,"test1"`, `2,"test2"`, joined by newlines |
| DataFormatter.JsonExample | tests/data_formatter_test.js:45-65 | the suite's corpus in JSON is `{testObjs: [{field1: 1, field2: "test1"}, {field1: 2, field2: "test2"}]}` |

## Left out

- Connection pools, pool sizes, timeouts and draining are left out: they concern resource lifetime only. The two logical databases remain a tag on each request.
- The promises' timing is left out. The callbacks and resolved values are modelled in order; when a promise resolves relative to a write is not.
- The HTTP controllers, `env_config`, `services` and `server` are not part of this model.
- The real clock and random key generation are inputs: `now`, and a sequence of candidate keys.
- DataFormatter.CsvRoundTrip: holds only for a non-empty field list whose names, like the string values, are free of `,` and newline. The source defines no CSV escaping. With no fields, the header and every row are empty lines, and they read back as one empty cell each.
- JSON text rendering and parsing are not modelled. The JSON output is the value tree that `JSON.parse` of the text would give.
- `resultLimit` has no upper clamp, because no code or test applies one. Collection names are used as given, with no lowercasing.
- Date normalisation is left out. Timestamps are integer milliseconds.
- The permissions check mentioned in `canFulfillQuery`'s comment is not modelled: the throttle is the only check.
- String ordering is not modelled. `$gt`/`$gte`/`$lt`/`$lte` hold only between numbers. A whitelisted range parameter given a string value (a date written as text, say) is translated as given, but the resulting selector matches no document in this model. The real store would order the strings.
- Unlike the draft suite at the repository root, the window's lower bound is strict (`$gt`), following `tests/account_db_facade_test.js`.
- AccountDbFacade.ReportUsage: takes the account's API key and resolves to the inserted record, as `tests/account_db_facade_test.js` requires. The stub's own signature takes the whole account, and its doc comment says the promise resolves to undefined. The draft suite also passes the account.
- The usage operations (`reportUsage`, `findAPIKeyUsage`, `removeOldUsageRecords`) go to the usages database, following `tests/account_db_facade_test.js`. The draft suite at the repository root expects them on the account database URI.
- TracerDbFacade.BuildSelector: an equality parameter and an operator parameter on the same field merge into one constraint, such as `{$eq: v, $gte: w}`. Equality does not take over the field exclusively. No test combines the two, and the merge treats every operator alike.
- CSV cells write null as `null` and a field the document lacks as an empty cell. Neither the stub nor its tests fix these two spellings.
- Values are null, integers and strings only. Non-integer numbers, booleans, nested objects and `Date` values are not modelled, in documents, in query parameters or in the formatter's corpus. Integers are unbounded and are written digit by digit. JavaScript numbers are doubles: they are exact only up to 2^53, and `String` writes large magnitudes in exponent form (`1e+21`). A CSV cell for such a value differs from the model's.
- Accounts carry an email and an API key only. The permissions field of an account is not modelled.
- Store failures of the account and usage operations are not modelled. For example, `updateAccountLog` always completes its prune after the write. Only the records query's read failure, the `Fault` parameter, is modelled.
- The throttle keeps the name `canFulfillQueryWithThrottle` and the logger the name `updateAccountLog`, as in the tests. The stub calls them `canFulfillQuery` and `recordFulfilledQuery`.
- AccountManager.UpdateAccountLog: reads the clock once. The record's `createdOn` and the sweep's cutoff `now - lifetime * 60000` come from the same `now`, so the new record always survives its own sweep. In the source, `reportUsage` stamps the record inside the facade and the manager takes its own `new Date()` for the cutoff (`tests/account_manager_test.js:222`). With a lifetime of 0, the later cutoff could remove the record just written. The promise that the new record survives therefore holds only for a positive lifetime or a single clock reading.
- AccountManager.GetOrCreateUserByEmail: when every candidate key is taken, the result is an error. The source would keep drawing random keys.
- DataFormatter.Format: an unknown format name gives an error value. In the source, looking the name up in `serializationStrategies` gives `undefined`, and an implementation calling the looked-up strategy would throw a `TypeError`. The stub's own body is empty.

=== FILE: account_db_facade.dfy ===
/**
 * Storing and loading account records and usage-log records.
 *
 * Two logical databases are involved: the account database, holding the
 * `accounts` collection, and the usage (logging) database, holding the
 * `usages` collection. Each facade operation issues one fixed-shape store
 * request; the model records that request and applies it to an abstract
 * store whose collections are sequences in natural order.
 */
module AccountDbFacade {
  import opened Base
  import opened Documents
  import DocumentStore

  datatype Database = AccountDb | UsageDb

  const ACCOUNT_COLLECTION: string := "accounts"
  const USAGE_COLLECTION: string := "usages"

  datatype Account = Account(email: string, apiKey: string)

  /** One usage-log entry; `error` is null for a request that was fulfilled. */
  datatype UsageRecord = UsageRecord(apiKey: string, query: Doc, error: Option<string>, createdOn: int)

  datatype Store = Store(accounts: seq<Account>, usages: seq<UsageRecord>)

  datatype Operation =
    | FindOne(selector: Selector)
    | FindMany(selector: Selector)
    | Update(selector: Selector, account: Account, upsert: bool)
    | Insert(record: UsageRecord)
    | Remove(selector: Selector)

  /** A request as the store receives it: database, collection and operation. */
  datatype Request = Request(db: Database, collection: string, op: Operation)

  /** One facade call: the request it issued, the value it resolves to, and the store afterwards. */
  datatype Call<T> = Call(request: Request, result: T, after: Store)

  /** The fields of an account the store can select on. */
  function AccountView(a: Account): Doc {
    map["email" := Str(a.email), "apiKey" := Str(a.apiKey)]
  }

  function ErrorValue(error: Option<string>): Value {
    match error
    case None => Null
    case Some(m) => Str(m)
  }

  /** The fields of a usage record the store can select on; the logged query is opaque to it. */
  function UsageView(u: UsageRecord): Doc {
    map["apiKey" := Str(u.apiKey), "error" := ErrorValue(u.error), "createdOn" := Num(u.createdOn)]
  }

  predicate UniqueEmails(accounts: seq<Account>) {
    forall i, j :: 0 <= i < j < |accounts| ==> accounts[i].email != accounts[j].email
  }

  predicate UniqueKeys(accounts: seq<Account>) {
    forall i, j :: 0 <= i < j < |accounts| ==> accounts[i].apiKey != accounts[j].apiKey
  }

  /** The two account fields a lookup can be keyed by. */
  datatype AccountKey = ByEmail | ByApiKey

  function KeyField(k: AccountKey): string {
    match k
    case ByEmail => "email"
    case ByApiKey => "apiKey"
  }

  function KeyOf(a: Account, k: AccountKey): string {
    match k
    case ByEmail => a.email
    case ByApiKey => a.apiKey
  }

  /** `{email: value}` or `{apiKey: value}`. */
  function AccountSelector(k: AccountKey, value: string): (sel: Selector)
    ensures forall a :: Matches(AccountView(a), sel) <==> KeyOf(a, k) == value
  {
    var sel := map[KeyField(k) := Is(Str(value))];
    assert forall a :: Matches(AccountView(a), sel) ==> Satisfies(Get(AccountView(a), KeyField(k)), sel[KeyField(k)]);
    sel
  }

  /** The usage window `{apiKey, createdOn: {$gt: start, $lt: end}}`. */
  predicate InWindow(u: UsageRecord, apiKey: string, start: int, end: int) {
    u.apiKey == apiKey && start < u.createdOn < end
  }

  function WindowSelector(apiKey: string, start: int, end: int): (sel: Selector)
    ensures forall u :: Matches(UsageView(u), sel) <==> InWindow(u, apiKey, start, end)
  {
    var range := map[Gt := Num(start), Lt := Num(end)];
    var sel := map["apiKey" := Is(Str(apiKey)), "createdOn" := Ops(range)];
    forall u ensures Matches(UsageView(u), sel) <==> InWindow(u, apiKey, start, end) {
      if Matches(UsageView(u), sel) {
        assert Satisfies(Get(UsageView(u), "apiKey"), sel["apiKey"]);
        assert Satisfies(Get(UsageView(u), "createdOn"), Ops(range));
        assert Gt in range && Lt in range;
        assert Holds(Get(UsageView(u), "createdOn"), Gt, Num(start));
        assert Holds(Get(UsageView(u), "createdOn"), Lt, Num(end));
      }
    }
    sel
  }

  /** A record the retention sweep `(apiKey, end, removeErrors)` deletes. */
  predicate Expired(u: UsageRecord, apiKey: string, end: int, removeErrors: bool) {
    u.apiKey == apiKey && u.createdOn < end && (removeErrors || u.error.None?)
  }

  /** `{apiKey, createdOn: {$lt: end}}`, plus `error: null` unless error records are to go too. */
  function ExpirySelector(apiKey: string, end: int, removeErrors: bool): (sel: Selector)
    ensures forall u :: Matches(UsageView(u), sel) <==> Expired(u, apiKey, end, removeErrors)
  {
    var before := map[Lt := Num(end)];
    var base := map["apiKey" := Is(Str(apiKey)), "createdOn" := Ops(before)];
    var sel := if removeErrors then base else base["error" := Is(Null)];
    forall u ensures Matches(UsageView(u), sel) <==> Expired(u, apiKey, end, removeErrors) {
      if Matches(UsageView(u), sel) {
        assert Satisfies(Get(UsageView(u), "apiKey"), sel["apiKey"]);
        assert Satisfies(Get(UsageView(u), "createdOn"), Ops(before));
        assert Lt in before;
        assert Holds(Get(UsageView(u), "createdOn"), Lt, Num(end));
        if !removeErrors {
          assert Satisfies(Get(UsageView(u), "error"), sel["error"]);
        }
      }
    }
    sel
  }

  /**
   * `getUserByEmail`: a `findOne({email})` on the accounts collection of
   * the account database, resolving to the account or to null.
   */
  function GetUserByEmail(s: Store, email: string): (r: Call<Option<Account>>)
    ensures r.request == Request(AccountDb, ACCOUNT_COLLECTION, FindOne(map["email" := Is(Str(email))]))
    ensures r.after == s
    ensures r.result.Some? ==> r.result.value in s.accounts && r.result.value.email == email
    ensures r.result.None? <==> forall a :: a in s.accounts ==> a.email != email
    ensures UniqueEmails(s.accounts) ==> forall a :: a in s.accounts && a.email == email ==> r.result == Some(a)
  {
    var sel := AccountSelector(ByEmail, email);
    var found := DocumentStore.FindFirst(s.accounts, AccountView, sel);
    var result := if found.Some? then Some(s.accounts[found.value]) else None;
    assert result.None? ==> forall a :: a in s.accounts ==> a.email != email by {
      if result.None? {
        forall a | a in s.accounts ensures a.email != email {
          var j :| 0 <= j < |s.accounts| && s.accounts[j] == a;
          assert !Matches(AccountView(s.accounts[j]), sel);
        }
      }
    }
    Call(Request(AccountDb, ACCOUNT_COLLECTION, FindOne(sel)), result, s)
  }

  /**
   * `getUserByAPIKey`: a `findOne({apiKey})` on the accounts collection of
   * the account database, resolving to the account or to null.
   */
  function GetUserByAPIKey(s: Store, apiKey: string): (r: Call<Option<Account>>)
    ensures r.request == Request(AccountDb, ACCOUNT_COLLECTION, FindOne(map["apiKey" := Is(Str(apiKey))]))
    ensures r.after == s
    ensures r.result.Some? ==> r.result.value in s.accounts && r.result.value.apiKey == apiKey
    ensures r.result.None? <==> forall a :: a in s.accounts ==> a.apiKey != apiKey
    ensures UniqueKeys(s.accounts) ==> forall a :: a in s.accounts && a.apiKey == apiKey ==> r.result == Some(a)
  {
    var sel := AccountSelector(ByApiKey, apiKey);
    var found := DocumentStore.FindFirst(s.accounts, AccountView, sel);
    var result := if found.Some? then Some(s.accounts[found.value]) else None;
    assert result.None? ==> forall a :: a in s.accounts ==> a.apiKey != apiKey by {
      if result.None? {
        forall a | a in s.accounts ensures a.apiKey != apiKey {
          var j :| 0 <= j < |s.accounts| && s.accounts[j] == a;
          assert !Matches(AccountView(s.accounts[j]), sel);
        }
      }
    }
    Call(Request(AccountDb, ACCOUNT_COLLECTION, FindOne(sel)), result, s)
  }

  /**
   * `putUser`: an upsert keyed by email. The account replaces the first
   * account with the same email, or is added when there is none; the call
   * resolves to the account given.
   */
  function PutUser(s: Store, a: Account): (r: Call<Account>)
    ensures r.request == Request(AccountDb, ACCOUNT_COLLECTION, Update(map["email" := Is(Str(a.email))], a, true))
    ensures r.result == a
    ensures r.after.usages == s.usages
    ensures a in r.after.accounts
    ensures forall b: Account :: b.email != a.email ==> (b in r.after.accounts <==> b in s.accounts)
    ensures UniqueEmails(s.accounts) ==>
              UniqueEmails(r.after.accounts) && forall b :: b in r.after.accounts && b.email == a.email ==> b == a
  {
    var sel := AccountSelector(ByEmail, a.email);
    var accounts := DocumentStore.UpdateFirst(s.accounts, AccountView, sel, a, true);
    PutUserEffect(s.accounts, a);
    Call(Request(AccountDb, ACCOUNT_COLLECTION, Update(sel, a, true)), a, s.(accounts := accounts))
  }

  /** The effect of an upsert by email, proved separately for the replacing and the appending case. */
  lemma PutUserEffect(accounts: seq<Account>, a: Account)
    ensures var after := DocumentStore.UpdateFirst(accounts, AccountView, AccountSelector(ByEmail, a.email), a, true);
            && a in after
            && (forall b: Account :: b.email != a.email ==> (b in after <==> b in accounts))
            && (UniqueEmails(accounts) ==>
                  UniqueEmails(after) && forall b :: b in after && b.email == a.email ==> b == a)
  {
    var sel := AccountSelector(ByEmail, a.email);
    match DocumentStore.FindFirst(accounts, AccountView, sel)
    case Some(i) =>
      ReplaceSameEmail(accounts, i, a);
    case None =>
      forall k | 0 <= k < |accounts| ensures accounts[k].email != a.email {
        assert !Matches(AccountView(accounts[k]), sel);
      }
      AppendNewEmail(accounts, a);
  }

  lemma ReplaceSameEmail(accounts: seq<Account>, i: nat, a: Account)
    requires i < |accounts| && accounts[i].email == a.email
    ensures var after := accounts[i := a];
            && a in after
            && (forall b: Account :: b.email != a.email ==> (b in after <==> b in accounts))
            && (UniqueEmails(accounts) ==>
                  UniqueEmails(after) && forall b :: b in after && b.email == a.email ==> b == a)
  {
    var after := accounts[i := a];
    assert after[i] == a;
    forall b: Account | b.email != a.email ensures b in after <==> b in accounts {
      if b in after {
        var j :| 0 <= j < |after| && after[j] == b;
        assert accounts[j] == b;
      }
      if b in accounts {
        var j :| 0 <= j < |accounts| && accounts[j] == b;
        assert after[j] == b;
      }
    }
    if UniqueEmails(accounts) {
      assert forall k :: 0 <= k < |accounts| && k != i ==> accounts[k].email != a.email by {
        forall k | 0 <= k < |accounts| && k != i ensures accounts[k].email != a.email {
          if k < i { assert accounts[k].email != accounts[i].email; }
          else { assert accounts[i].email != accounts[k].email; }
        }
      }
      assert forall k :: 0 <= k < |after| && k != i ==> after[k].email != a.email;
      forall b | b in after && b.email == a.email ensures b == a {
        var j :| 0 <= j < |after| && after[j] == b;
      }
    }
  }

  lemma AppendNewEmail(accounts: seq<Account>, a: Account)
    requires forall k :: 0 <= k < |accounts| ==> accounts[k].email != a.email
    ensures var after := accounts + [a];
            && a in after
            && (forall b: Account :: b.email != a.email ==> (b in after <==> b in accounts))
            && (UniqueEmails(accounts) ==>
                  UniqueEmails(after) && forall b :: b in after && b.email == a.email ==> b == a)
  {
    var after := accounts + [a];
    assert after[|accounts|] == a;
    assert forall k :: 0 <= k < |accounts| ==> after[k].email != a.email;
    forall b | b in after && b.email == a.email ensures b == a {
      var j :| 0 <= j < |after| && after[j] == b;
    }
  }

  /**
   * `reportUsage(apiKey, query, error)`: inserts one usage record into the
   * usages collection of the logging database and resolves to it. Its
   * error is the message given, or null when none was given.
   */
  function ReportUsage(s: Store, apiKey: string, query: Doc, error: Option<string>, now: int): (r: Call<UsageRecord>)
    ensures r.result.apiKey == apiKey && r.result.query == query && r.result.createdOn == now
    ensures r.result.error == error
    ensures r.request == Request(UsageDb, USAGE_COLLECTION, Insert(r.result))
    ensures r.after == Store(s.accounts, s.usages + [r.result])
  {
    var record := UsageRecord(apiKey, query, error, now);
    Call(Request(UsageDb, USAGE_COLLECTION, Insert(record)), record, s.(usages := s.usages + [record]))
  }

  /** Reference definition: the records of `apiKey` strictly inside `(start, end)`, in log order. */
  function WindowOf(usages: seq<UsageRecord>, apiKey: string, start: int, end: int): seq<UsageRecord>
    decreases |usages|
  {
    if |usages| == 0 then []
    else if InWindow(usages[0], apiKey, start, end) then [usages[0]] + WindowOf(usages[1..], apiKey, start, end)
    else WindowOf(usages[1..], apiKey, start, end)
  }

  /**
   * `findAPIKeyUsage(apiKey, startDate, endDate)`: a `find` on the usages
   * collection resolving to the records of that key created strictly
   * between the two dates, in log order.
   */
  function FindAPIKeyUsage(s: Store, apiKey: string, start: int, end: int): (r: Call<seq<UsageRecord>>)
    ensures r.request == Request(UsageDb, USAGE_COLLECTION,
                          FindMany(map["apiKey" := Is(Str(apiKey)), "createdOn" := Ops(map[Gt := Num(start), Lt := Num(end)])]))
    ensures r.after == s
    ensures r.result == WindowOf(s.usages, apiKey, start, end)
  {
    var sel := WindowSelector(apiKey, start, end);
    FindIsWindow(s.usages, apiKey, start, end);
    Call(Request(UsageDb, USAGE_COLLECTION, FindMany(sel)), DocumentStore.Find(s.usages, UsageView, sel), s)
  }

  lemma {:induction false} FindIsWindow(usages: seq<UsageRecord>, apiKey: string, start: int, end: int)
    ensures DocumentStore.Find(usages, UsageView, WindowSelector(apiKey, start, end)) == WindowOf(usages, apiKey, start, end)
    decreases |usages|
  {
    if |usages| > 0 {
      FindIsWindow(usages[1..], apiKey, start, end);
    }
  }

  lemma {:induction false} WindowMembers(usages: seq<UsageRecord>, apiKey: string, start: int, end: int)
    ensures forall u :: u in WindowOf(usages, apiKey, start, end) <==> u in usages && InWindow(u, apiKey, start, end)
    decreases |usages|
  {
    if |usages| > 0 {
      WindowMembers(usages[1..], apiKey, start, end);
      assert usages == [usages[0]] + usages[1..];
    }
  }

  /** Reference definition: the log after a retention sweep, in order. */
  function Surviving(usages: seq<UsageRecord>, apiKey: string, end: int, removeErrors: bool): seq<UsageRecord>
    decreases |usages|
  {
    if |usages| == 0 then []
    else if Expired(usages[0], apiKey, end, removeErrors) then Surviving(usages[1..], apiKey, end, removeErrors)
    else [usages[0]] + Surviving(usages[1..], apiKey, end, removeErrors)
  }

  /**
   * `removeOldUsageRecords(apiKey, endDate, removeErrors)`: a `remove` on
   * the usages collection deleting exactly the records of that key created
   * before `endDate` (only error-free ones unless `removeErrors`); every
   * other record and every account is untouched.
   */
  function RemoveOldUsageRecords(s: Store, apiKey: string, end: int, removeErrors: bool): (r: Call<()>)
    ensures r.request == Request(UsageDb, USAGE_COLLECTION,
                          Remove(if removeErrors then map["apiKey" := Is(Str(apiKey)), "createdOn" := Ops(map[Lt := Num(end)])]
                                 else map["apiKey" := Is(Str(apiKey)), "createdOn" := Ops(map[Lt := Num(end)]), "error" := Is(Null)]))
    ensures r.after.accounts == s.accounts
    ensures r.after.usages == Surviving(s.usages, apiKey, end, removeErrors)
    ensures forall u :: u in r.after.usages <==> u in s.usages && !Expired(u, apiKey, end, removeErrors)
  {
    var sel := ExpirySelector(apiKey, end, removeErrors);
    RemoveIsSurviving(s.usages, apiKey, end, removeErrors);
    Call(Request(UsageDb, USAGE_COLLECTION, Remove(sel)), (),
         s.(usages := DocumentStore.RemoveMatching(s.usages, UsageView, sel)))
  }

  lemma {:induction false} RemoveIsSurviving(usages: seq<UsageRecord>, apiKey: string, end: int, removeErrors: bool)
    ensures DocumentStore.RemoveMatching(usages, UsageView, ExpirySelector(apiKey, end, removeErrors))
         == Surviving(usages, apiKey, end, removeErrors)
    decreases |usages|
  {
    if |usages| > 0 {
      RemoveIsSurviving(usages[1..], apiKey, end, removeErrors);
    }
  }

  /** A record just reported is found by a usage query exactly when its timestamp is inside the window. */
  lemma ReportedUsageIsFound(s: Store, apiKey: string, query: Doc, error: Option<string>, now: int, start: int, end: int)
    ensures var rep := ReportUsage(s, apiKey, query, error, now);
            rep.result in FindAPIKeyUsage(rep.after, apiKey, start, end).result <==> start < now < end
  {
    var rep := ReportUsage(s, apiKey, query, error, now);
    WindowMembers(rep.after.usages, apiKey, start, end);
    assert rep.result in rep.after.usages;
  }

  /** Sweeping with `removeErrors = false` never deletes a record that carries an error. */
  lemma SweepKeepsErrorRecords(s: Store, apiKey: string, end: int)
    ensures forall u :: u in s.usages && u.error.Some? ==> u in RemoveOldUsageRecords(s, apiKey, end, false).after.usages
  {
  }

  /** Upserting an account whose key no other email holds keeps keys unique. */
  lemma PutUserKeepsKeysUnique(s: Store, a: Account)
    requires UniqueEmails(s.accounts) && UniqueKeys(s.accounts)
    requires forall b :: b in s.accounts && b.apiKey == a.apiKey ==> b.email == a.email
    ensures UniqueKeys(PutUser(s, a).after.accounts)
  {
    var after := PutUser(s, a).after.accounts;
    var sel := AccountSelector(ByEmail, a.email);
    forall i, j | 0 <= i < j < |after| ensures after[i].apiKey != after[j].apiKey {
      match DocumentStore.FindFirst(s.accounts, AccountView, sel)
      case Some(k) =>
        assert after == s.accounts[k := a];
        if i == k {
          assert s.accounts[j].email != a.email;
        } else if j == k {
          assert s.accounts[i].email != a.email;
        }
      case None =>
        assert after == s.accounts + [a];
        if j == |s.accounts| {
          assert s.accounts[i].email != a.email;
          assert s.accounts[i] in s.accounts;
        }
    }
  }
}

=== FILE: account_manager.dfy ===
/**
 * User accounts, throttling, and account activity logging, as a decorator
 * over the account store facade.
 *
 * Each operation is a sequence of facade calls; the model returns those
 * calls in order, the value the operation resolves to, and the store after
 * it. The clock is the `now` parameter (milliseconds) and the random API-key
 * generator is a supplied sequence of candidate keys.
 */
module AccountManager {
  import opened Base
  import opened Documents
  import opened AccountDbFacade

  const MILLIS_PER_MINUTE: int := 60000

  /** Length of the throttle's sliding window. */
  const THROTTLE_WINDOW_MILLIS: int := MILLIS_PER_MINUTE

  /** The behavioural constants `MAX_QPM` and `LOG_ENTRY_LIFETIME_MINUTES`. */
  datatype Config = Config(maxQpm: nat, logEntryLifetimeMinutes: nat)

  /** A call made to the account store facade, with its arguments. */
  datatype FacadeCall =
    | GetUserByEmailCall(email: string)
    | GetUserByAPIKeyCall(apiKey: string)
    | PutUserCall(account: Account)
    | ReportUsageCall(apiKey: string, query: Doc, error: Option<string>)
    | FindAPIKeyUsageCall(apiKey: string, start: int, end: int)
    | RemoveOldUsageRecordsCall(apiKey: string, end: int, removeErrors: bool)

  datatype Outcome<T> = Outcome(calls: seq<FacadeCall>, result: T, after: Store)

  datatype ManagerError = NoFreeApiKey

  predicate KeyTaken(s: Store, apiKey: string) {
    exists a :: a in s.accounts && a.apiKey == apiKey
  }

  /** The store invariant: no two accounts share an email or an API key. */
  predicate Valid(s: Store) {
    UniqueEmails(s.accounts) && UniqueKeys(s.accounts)
  }

  /** A lookup by key finds nothing exactly when no account owns the key. */
  lemma LookupDecidesOwnership(s: Store, apiKey: string)
    ensures GetUserByAPIKey(s, apiKey).result.None? <==> !KeyTaken(s, apiKey)
  {
    var r := GetUserByAPIKey(s, apiKey);
    if r.result.Some? {
      assert r.result.value in s.accounts && r.result.value.apiKey == apiKey;
    }
  }

  datatype KeySearch = KeySearch(lookups: seq<FacadeCall>, key: Option<string>)

  /**
   * Rejection sampling for a new API key: look each candidate up by key
   * and take the first one no account owns.
   */
  function FreshKey(s: Store, candidates: seq<string>): (r: KeySearch)
    ensures |r.lookups| <= |candidates|
    ensures forall i :: 0 <= i < |r.lookups| ==> r.lookups[i] == GetUserByAPIKeyCall(candidates[i])
    ensures r.key.Some? ==> && |r.lookups| > 0
                            && r.key.value == candidates[|r.lookups| - 1]
                            && !KeyTaken(s, r.key.value)
                            && forall i :: 0 <= i < |r.lookups| - 1 ==> KeyTaken(s, candidates[i])
    ensures r.key.None? ==> |r.lookups| == |candidates| && forall i :: 0 <= i < |candidates| ==> KeyTaken(s, candidates[i])
    decreases |candidates|
  {
    if |candidates| == 0 then KeySearch([], None)
    else
      LookupDecidesOwnership(s, candidates[0]);
      if GetUserByAPIKey(s, candidates[0]).result.None? then
        KeySearch([GetUserByAPIKeyCall(candidates[0])], Some(candidates[0]))
      else
        var rest := FreshKey(s, candidates[1..]);
        KeySearch([GetUserByAPIKeyCall(candidates[0])] + rest.lookups, rest.key)
  }

  /**
   * `getOrCreateUserByEmail`: the account with this email if there is one
   * (without writing anything); otherwise a new account with this email and
   * a key no account owns, saved with `putUser`.
   */
  function GetOrCreateUserByEmail(s: Store, email: string, candidates: seq<string>): (r: Outcome<Result<Account, ManagerError>>)
    ensures |r.calls| > 0 && r.calls[0] == GetUserByEmailCall(email)
    ensures (exists a :: a in s.accounts && a.email == email) ==>
              && r.calls == [GetUserByEmailCall(email)]
              && r.after == s
              && r.result.Ok? && r.result.value in s.accounts && r.result.value.email == email
    ensures (forall a :: a in s.accounts ==> a.email != email) && r.result.Ok? ==>
              && r.result.value.email == email
              && !KeyTaken(s, r.result.value.apiKey)
              && r.calls[|r.calls| - 1] == PutUserCall(r.result.value)
              && r.result.value in r.after.accounts
              && r.after.usages == s.usages
    ensures (forall a :: a in s.accounts ==> a.email != email) && r.result.Ok? ==>
              && FreshKey(s, candidates).key == Some(r.result.value.apiKey)
              && r.calls == [GetUserByEmailCall(email)] + FreshKey(s, candidates).lookups + [PutUserCall(r.result.value)]
              && r.after == PutUser(s, r.result.value).after
    ensures r.result.Err? ==> r.after == s && forall k :: k in candidates ==> KeyTaken(s, k)
    ensures r.result.Err? ==> r.calls == [GetUserByEmailCall(email)] + FreshKey(s, candidates).lookups
    ensures Valid(s) ==> Valid(r.after)
    ensures Valid(s) && r.result.Ok? ==> forall a :: a in r.after.accounts && a.email == email ==> a == r.result.value
  {
    var lookup := GetUserByEmail(s, email);
    match lookup.result
    case Some(a) => Outcome([GetUserByEmailCall(email)], Ok(a), s)
    case None =>
      var search := FreshKey(s, candidates);
      match search.key
      case None =>
        assert forall k :: k in candidates ==> KeyTaken(s, k) by {
          forall k | k in candidates ensures KeyTaken(s, k) {
            var i :| 0 <= i < |candidates| && candidates[i] == k;
          }
        }
        Outcome([GetUserByEmailCall(email)] + search.lookups, Err(NoFreeApiKey), s)
      case Some(key) =>
        var account := Account(email, key);
        var put := PutUser(s, account);
        assert Valid(s) ==> Valid(put.after) by {
          if Valid(s) { PutUserKeepsKeysUnique(s, account); }
        }
        Outcome([GetUserByEmailCall(email)] + search.lookups + [PutUserCall(account)], Ok(put.result), put.after)
  }

  /**
   * `canFulfillQueryWithThrottle` (`canFulfillQuery` in the module's own
   * listing): reads the usage records of the account's key created in the
   * last minute, `(now - 60000, now)`, and allows the query iff there are
   * fewer than `MAX_QPM` of them.
   */
  function CanFulfillQueryWithThrottle(s: Store, cfg: Config, account: Account, now: int): (r: Outcome<bool>)
    ensures r.calls == [FindAPIKeyUsageCall(account.apiKey, now - THROTTLE_WINDOW_MILLIS, now)]
    ensures r.after == s
    ensures r.result <==> RecentCount(s.usages, account.apiKey, now) < cfg.maxQpm
  {
    var start := now - THROTTLE_WINDOW_MILLIS;
    var window := FindAPIKeyUsage(s, account.apiKey, start, now);
    WindowCount(s.usages, account.apiKey, start, now);
    Outcome([FindAPIKeyUsageCall(account.apiKey, start, now)], |window.result| < cfg.maxQpm, s)
  }

  /** Reference count: records of `apiKey` created strictly within the minute before `now`. */
  function RecentCount(usages: seq<UsageRecord>, apiKey: string, now: int): nat
    decreases |usages|
  {
    if |usages| == 0 then 0
    else
      var u := usages[|usages| - 1];
      var here := if u.apiKey == apiKey && now - THROTTLE_WINDOW_MILLIS < u.createdOn < now then 1 else 0;
      RecentCount(usages[..|usages| - 1], apiKey, now) + here
  }

  lemma {:induction false} WindowCount(usages: seq<UsageRecord>, apiKey: string, start: int, now: int)
    requires start == now - THROTTLE_WINDOW_MILLIS
    ensures |WindowOf(usages, apiKey, start, now)| == RecentCount(usages, apiKey, now)
    decreases |usages|
  {
    if |usages| > 0 {
      var n := |usages| - 1;
      WindowCount(usages[..n], apiKey, start, now);
      WindowOfAppend(usages[..n], usages[n], apiKey, start, now);
      assert usages[..n] + [usages[n]] == usages;
    }
  }

  lemma {:induction false} WindowOfAppend(usages: seq<UsageRecord>, u: UsageRecord, apiKey: string, start: int, end: int)
    ensures WindowOf(usages + [u], apiKey, start, end)
         == WindowOf(usages, apiKey, start, end) + (if InWindow(u, apiKey, start, end) then [u] else [])
    decreases |usages|
  {
    if |usages| == 0 {
      assert usages + [u] == [u];
      assert [u][1..] == [];
    } else {
      assert (usages + [u])[1..] == usages[1..] + [u];
      WindowOfAppend(usages[1..], u, apiKey, start, end);
    }
  }

  /**
   * `updateAccountLog` (`recordFulfilledQuery` in the module's own listing):
   * report the usage, then sweep this key's error-free records older than
   * `LOG_ENTRY_LIFETIME_MINUTES`. Records with an error, records of other
   * keys, the record just written and the accounts all survive.
   */
  function UpdateAccountLog(s: Store, cfg: Config, account: Account, query: Doc, error: Option<string>, now: int): (r: Outcome<()>)
    ensures var cutoff := now - cfg.logEntryLifetimeMinutes * MILLIS_PER_MINUTE;
            r.calls == [ReportUsageCall(account.apiKey, query, error),
                        RemoveOldUsageRecordsCall(account.apiKey, cutoff, false)]
    ensures r.after.accounts == s.accounts
    ensures UsageRecord(account.apiKey, query, error, now) in r.after.usages
    ensures forall u :: u in s.usages && u.error.Some? ==> u in r.after.usages
    ensures forall u :: u in s.usages && u.apiKey != account.apiKey ==> u in r.after.usages
    ensures var cutoff := now - cfg.logEntryLifetimeMinutes * MILLIS_PER_MINUTE;
            forall u :: u in r.after.usages <==>
              (u in s.usages && !Expired(u, account.apiKey, cutoff, false)) || u == UsageRecord(account.apiKey, query, error, now)
  {
    var cutoff := now - cfg.logEntryLifetimeMinutes * MILLIS_PER_MINUTE;
    var report := ReportUsage(s, account.apiKey, query, error, now);
    var sweep := RemoveOldUsageRecords(report.after, account.apiKey, cutoff, false);
    Outcome([ReportUsageCall(account.apiKey, query, error), RemoveOldUsageRecordsCall(account.apiKey, cutoff, false)],
            (), sweep.after)
  }

  /** A sweep with cutoff at or before the window start removes nothing the window counts. */
  lemma {:induction false} SweepPreservesWindow(usages: seq<UsageRecord>, apiKey: string, cutoff: int, other: string, now: int)
    requires cutoff <= now - THROTTLE_WINDOW_MILLIS + 1
    ensures RecentCount(Surviving(usages, apiKey, cutoff, false), other, now) == RecentCount(usages, other, now)
    decreases |usages|
  {
    if |usages| > 0 {
      var n := |usages| - 1;
      SweepPreservesWindow(usages[..n], apiKey, cutoff, other, now);
      SurvivingAppend(usages[..n], usages[n], apiKey, cutoff);
      assert usages[..n] + [usages[n]] == usages;
      var kept := Surviving(usages[..n], apiKey, cutoff, false);
      var u := usages[n];
      var here := if u.apiKey == other && now - THROTTLE_WINDOW_MILLIS < u.createdOn < now then 1 else 0;
      assert RecentCount(usages, other, now) == RecentCount(usages[..n], other, now) + here;
      if Expired(u, apiKey, cutoff, false) {
        assert here == 0;
        assert Surviving(usages, apiKey, cutoff, false) == kept;
      } else {
        assert (kept + [u])[..|kept|] == kept;
        assert RecentCount(kept + [u], other, now) == RecentCount(kept, other, now) + here;
      }
    }
  }

  lemma {:induction false} SurvivingAppend(usages: seq<UsageRecord>, u: UsageRecord, apiKey: string, end: int)
    ensures Surviving(usages + [u], apiKey, end, false)
         == Surviving(usages, apiKey, end, false) + (if Expired(u, apiKey, end, false) then [] else [u])
    decreases |usages|
  {
    if |usages| == 0 {
      assert usages + [u] == [u];
      assert [u][1..] == [];
    } else {
      assert (usages + [u])[1..] == usages[1..] + [u];
      SurvivingAppend(usages[1..], u, apiKey, end);
    }
  }

  /**
   * Retention never weakens the throttle: with a lifetime of at least one
   * minute, any later throttle check sees the same number of recent records
   * as it would had nothing been swept.
   */
  lemma LoggingKeepsThrottle(s: Store, cfg: Config, account: Account, query: Doc, error: Option<string>, now: int, later: int, who: string)
    requires cfg.logEntryLifetimeMinutes >= 1 && later >= now
    ensures RecentCount(UpdateAccountLog(s, cfg, account, query, error, now).after.usages, who, later)
         == RecentCount(s.usages + [UsageRecord(account.apiKey, query, error, now)], who, later)
  {
    var cutoff := now - cfg.logEntryLifetimeMinutes * MILLIS_PER_MINUTE;
    var withRecord := s.usages + [UsageRecord(account.apiKey, query, error, now)];
    assert UpdateAccountLog(s, cfg, account, query, error, now).after.usages == Surviving(withRecord, account.apiKey, cutoff, false);
    SweepPreservesWindow(withRecord, account.apiKey, cutoff, who, later);
  }

  /** With `MAX_QPM = 2`, one record in the last minute leaves room for the query. */
  lemma OneRecentUseAllowed(apiKey: string, query: Doc, now: int, t: int)
    requires now - THROTTLE_WINDOW_MILLIS < t < now
    ensures CanFulfillQueryWithThrottle(Store([], [UsageRecord(apiKey, query, None, t)]), Config(2, 1440), Account("", apiKey), now).result
  {
    var us := [UsageRecord(apiKey, query, None, t)];
    assert us[..0] == [];
    assert RecentCount(us, apiKey, now) == 1;
  }

  /** With `MAX_QPM = 2`, two records in the last minute refuse the query. */
  lemma TwoRecentUsesRefused(apiKey: string, query: Doc, now: int, t1: int, t2: int)
    requires now - THROTTLE_WINDOW_MILLIS < t1 < now && now - THROTTLE_WINDOW_MILLIS < t2 < now
    ensures !CanFulfillQueryWithThrottle(Store([], [UsageRecord(apiKey, query, None, t1), UsageRecord(apiKey, query, None, t2)]),
                                         Config(2, 1440), Account("", apiKey), now).result
  {
    var us := [UsageRecord(apiKey, query, None, t1), UsageRecord(apiKey, query, None, t2)];
    assert us[..1] == [us[0]];
    assert us[..1][..0] == [];
    assert RecentCount(us[..1], apiKey, now) == 1;
    assert RecentCount(us, apiKey, now) == 2;
  }

  /** When the first candidate key is unowned, a new account is created with it after a single key lookup. */
  lemma CreateWithFirstFreeKey(s: Store, email: string, key: string, more: seq<string>)
    requires forall a :: a in s.accounts ==> a.email != email && a.apiKey != key
    ensures GetOrCreateUserByEmail(s, email, [key] + more)
         == Outcome([GetUserByEmailCall(email), GetUserByAPIKeyCall(key), PutUserCall(Account(email, key))],
                    Ok(Account(email, key)), PutUser(s, Account(email, key)).after)
  {
    assert FreshKey(s, [key] + more) == KeySearch([GetUserByAPIKeyCall(key)], Some(key));
  }
}

=== FILE: data_formatter.dfy ===
/**
 * The result formatter: a corpus of documents is projected onto a list of
 * field names and serialised either as a CSV table or as a JSON object that
 * holds the projected documents under a caller-chosen label.
 */
module DataFormatter {
  import opened Base
  import opened Documents
  import opened Text

  // ---------------------------------------------------------------------
  // CSV
  // ---------------------------------------------------------------------

  /**
   * One CSV cell: numbers are written bare, strings inside double quotes,
   * null as `null`, and a field the document lacks as an empty cell.
   */
  function Cell(v: Option<Value>): string {
    match v
    case None => ""
    case Some(Null) => "null"
    case Some(Num(n)) => IntToString(n)
    case Some(Str(s)) => "\"" + s + "\""
  }

  /** The cells of one document, in field-list order. */
  function Cells(d: Doc, fields: seq<string>): (r: seq<string>)
    ensures |r| == |fields|
    ensures forall j :: 0 <= j < |fields| ==> r[j] == Cell(Get(d, fields[j]))
  {
    seq(|fields|, j requires 0 <= j < |fields| => Cell(Get(d, fields[j])))
  }

  /** The lines of the table: the header, then one row per document in corpus order. */
  function Lines(corpus: seq<Doc>, fields: seq<string>): (r: seq<string>)
    ensures |r| == |corpus| + 1
    ensures r[0] == Join(fields, ',')
    ensures forall i :: 0 <= i < |corpus| ==> r[i + 1] == Join(Cells(corpus[i], fields), ',')
  {
    [Join(fields, ',')] + seq(|corpus|, i requires 0 <= i < |corpus| => Join(Cells(corpus[i], fields), ','))
  }

  /**
   * `formatAsCSV(corpus, fields, unusedLabel)`: the lines joined by a
   * newline, with no trailing newline. The label plays no part.
   */
  function FormatAsCSV(corpus: seq<Doc>, fields: seq<string>, unusedLabel: string): string {
    Join(Lines(corpus, fields), '\n')
  }

  /** A value whose cell cannot be confused with a separator. */
  predicate CellSafe(v: Option<Value>) {
    match v
    case Some(Str(s)) => ',' !in s && '\n' !in s
    case _ => true
  }

  /** A value whose cell stays on one line. */
  predicate LineSafe(v: Option<Value>) {
    match v
    case Some(Str(s)) => '\n' !in s
    case _ => true
  }

  /** Field names and string values free of newlines: every line of the output is one table line. */
  predicate SingleLines(corpus: seq<Doc>, fields: seq<string>) {
    && (forall j :: 0 <= j < |fields| ==> '\n' !in fields[j])
    && (forall i, j :: 0 <= i < |corpus| && 0 <= j < |fields| ==> LineSafe(Get(corpus[i], fields[j])))
  }

  /** Field names and string values free of commas and newlines, at least one field. */
  predicate Tabular(corpus: seq<Doc>, fields: seq<string>) {
    && |fields| > 0
    && (forall j :: 0 <= j < |fields| ==> ',' !in fields[j] && '\n' !in fields[j])
    && (forall i, j :: 0 <= i < |corpus| && 0 <= j < |fields| ==> CellSafe(Get(corpus[i], fields[j])))
  }

  /** The reading of one cell: Some(None) for an empty cell, None when the text is no cell at all. */
  function ReadCell(c: string): Option<Option<Value>> {
    if c == "" then Some(None)
    else if c == "null" then Some(Some(Null))
    else if |c| >= 2 && c[0] == '"' && c[|c| - 1] == '"' then Some(Some(Str(c[1..|c| - 1])))
    else match ParseInt(c)
      case Some(n) => Some(Some(Num(n)))
      case None => None
  }

  /** A CSV text read back: the header names and, per row, the reading of each cell. */
  datatype Table = Table(header: seq<string>, rows: seq<seq<Option<Option<Value>>>>)

  function ReadRow(line: string): seq<Option<Option<Value>>> {
    var cells := Split(line, ',');
    seq(|cells|, j requires 0 <= j < |cells| => ReadCell(cells[j]))
  }

  function ReadLines(lines: seq<string>): Table
    requires |lines| > 0
  {
    Table(Split(lines[0], ','), seq(|lines| - 1, i requires 0 <= i < |lines| - 1 => ReadRow(lines[i + 1])))
  }

  function ReadCSV(text: string): Table {
    ReadLines(Split(text, '\n'))
  }

  /** Reading a cell gives back the value it was written from. */
  lemma CellRoundTrip(v: Option<Value>)
    ensures ReadCell(Cell(v)) == Some(v)
  {
    match v
    case None =>
    case Some(Null) =>
    case Some(Num(n)) =>
      IntRoundTrip(n);
      IntToStringChars(n);
      assert Cell(v)[0] != 'n' && Cell(v)[0] != '"';
    case Some(Str(s)) =>
      var c := Cell(v);
      assert c[0] == '"' && c[|c| - 1] == '"' && c[1..|c| - 1] == s;
  }

  /** A cell written from a safe value holds neither separator. */
  lemma CellAvoidsSeparators(v: Option<Value>)
    requires CellSafe(v)
    ensures ',' !in Cell(v) && '\n' !in Cell(v)
  {
    match v
    case Some(Num(n)) =>
      IntToStringChars(n);
    case Some(Str(s)) =>
      assert Cell(v) == ['"'] + s + ['"'];
    case _ =>
  }

  /** A cell written from a single-line value holds no newline. */
  lemma CellAvoidsNewline(v: Option<Value>)
    requires LineSafe(v)
    ensures '\n' !in Cell(v)
  {
    match v
    case Some(Num(n)) =>
      IntToStringChars(n);
    case Some(Str(s)) =>
      assert Cell(v) == ['"'] + s + ['"'];
    case _ =>
  }

  /**
   * Splitting the output on newlines gives back the header and the rows,
   * commas in names or values notwithstanding.
   */
  lemma CsvLines(corpus: seq<Doc>, fields: seq<string>, resultLabel: string)
    requires SingleLines(corpus, fields)
    ensures Split(FormatAsCSV(corpus, fields, resultLabel), '\n') == Lines(corpus, fields)
  {
    var lines := Lines(corpus, fields);
    JoinAvoids(fields, ',', '\n');
    forall i | 0 <= i < |corpus|
      ensures '\n' !in Join(Cells(corpus[i], fields), ',')
    {
      var cells := Cells(corpus[i], fields);
      forall j | 0 <= j < |cells|
        ensures '\n' !in cells[j]
      {
        CellAvoidsNewline(Get(corpus[i], fields[j]));
      }
      JoinAvoids(cells, ',', '\n');
    }
    assert forall k :: 0 <= k < |lines| ==> '\n' !in lines[k] by {
      forall k | 0 <= k < |lines|
        ensures '\n' !in lines[k]
      {
        if k > 0 {
          assert lines[(k - 1) + 1] == lines[k];
        }
      }
    }
    SplitJoin(lines, '\n');
  }

  /** Each row reads back as the document's values for the requested fields, in order. */
  lemma RowRoundTrip(d: Doc, fields: seq<string>)
    requires |fields| > 0
    requires forall j :: 0 <= j < |fields| ==> CellSafe(Get(d, fields[j]))
    ensures ReadRow(Join(Cells(d, fields), ',')) == seq(|fields|, j requires 0 <= j < |fields| => Some(Get(d, fields[j])))
  {
    var cells := Cells(d, fields);
    forall j | 0 <= j < |cells|
      ensures ',' !in cells[j]
    {
      CellAvoidsSeparators(Get(d, fields[j]));
    }
    SplitJoin(cells, ',');
    forall j | 0 <= j < |fields|
      ensures ReadCell(cells[j]) == Some(Get(d, fields[j]))
    {
      CellRoundTrip(Get(d, fields[j]));
    }
  }

  /** The table a tabular corpus should read back as: the field list, then each document's requested values. */
  function Expected(corpus: seq<Doc>, fields: seq<string>): Table {
    Table(fields, seq(|corpus|, i requires 0 <= i < |corpus| =>
                        seq(|fields|, j requires 0 <= j < |fields| => Some(Get(corpus[i], fields[j])))))
  }

  /** Row line `i` of the table reads back as document `i`'s requested values. */
  lemma RowLineRoundTrip(corpus: seq<Doc>, fields: seq<string>, i: nat)
    requires Tabular(corpus, fields) && i < |corpus|
    ensures ReadRow(Lines(corpus, fields)[i + 1]) == Expected(corpus, fields).rows[i]
  {
    assert forall j :: 0 <= j < |fields| ==> CellSafe(Get(corpus[i], fields[j]));
    RowRoundTrip(corpus[i], fields);
  }

  /** Reading the header line and the row lines gives back the expected table. */
  lemma ReadLinesRoundTrip(corpus: seq<Doc>, fields: seq<string>)
    requires Tabular(corpus, fields)
    ensures ReadLines(Lines(corpus, fields)) == Expected(corpus, fields)
  {
    var lines := Lines(corpus, fields);
    var t := ReadLines(lines);
    var e := Expected(corpus, fields);
    SplitJoin(fields, ',');
    assert t.header == e.header;
    forall i | 0 <= i < |corpus|
      ensures t.rows[i] == e.rows[i]
    {
      RowLineRoundTrip(corpus, fields, i);
    }
    assert t.rows == e.rows;
  }

  /**
   * CSV round trip: the header reads back as the field list in order, and
   * row `i`, column `j` reads back as field `j` of document `i` (absent
   * fields as empty cells). Fields outside the list leave no trace.
   */
  lemma CsvRoundTrip(corpus: seq<Doc>, fields: seq<string>, resultLabel: string)
    requires Tabular(corpus, fields)
    ensures var t := ReadCSV(FormatAsCSV(corpus, fields, resultLabel));
            && t.header == fields
            && |t.rows| == |corpus|
            && forall i, j :: 0 <= i < |corpus| && 0 <= j < |fields| ==>
                 |t.rows[i]| == |fields| && t.rows[i][j] == Some(Get(corpus[i], fields[j]))
  {
    assert SingleLines(corpus, fields) by {
      forall i, j | 0 <= i < |corpus| && 0 <= j < |fields|
        ensures LineSafe(Get(corpus[i], fields[j]))
      {
        assert CellSafe(Get(corpus[i], fields[j]));
      }
    }
    CsvLines(corpus, fields, resultLabel);
    ReadLinesRoundTrip(corpus, fields);
    assert ReadCSV(FormatAsCSV(corpus, fields, resultLabel)) == Expected(corpus, fields);
  }

  /**
   * Only the requested fields matter: two documents that agree on every
   * field in the list give the same CSV cells and the same JSON projection,
   * whatever else they hold.
   */
  lemma OtherFieldsIgnored(d1: Doc, d2: Doc, fields: seq<string>)
    requires forall j :: 0 <= j < |fields| ==> Get(d1, fields[j]) == Get(d2, fields[j])
    ensures Cells(d1, fields) == Cells(d2, fields)
    ensures Project(d1, fields) == Project(d2, fields)
  {
    var p1 := Project(d1, fields);
    var p2 := Project(d2, fields);
    forall f | f in fields
      ensures (f in d1 <==> f in d2) && (f in d1 ==> d1[f] == d2[f])
    {
      var j :| 0 <= j < |fields| && fields[j] == f;
      assert Get(d1, fields[j]) == Get(d2, fields[j]);
    }
    assert p1.Keys == p2.Keys;
  }

  /** The label argument does not affect the CSV output. */
  lemma CsvIgnoresLabel(corpus: seq<Doc>, fields: seq<string>, label1: string, label2: string)
    ensures FormatAsCSV(corpus, fields, label1) == FormatAsCSV(corpus, fields, label2)
  {
  }

  // ---------------------------------------------------------------------
  // JSON
  // ---------------------------------------------------------------------

  /** A JSON document as a value tree; its text rendering is not modelled. */
  datatype Json = JNull | JNum(n: int) | JStr(s: string) | JArray(items: seq<Json>) | JObject(members: map<string, Json>)

  function ToJson(v: Value): Json {
    match v
    case Null => JNull
    case Num(n) => JNum(n)
    case Str(s) => JStr(s)
  }

  /** A document restricted to the requested fields it has. */
  function Project(d: Doc, fields: seq<string>): (p: Doc)
    ensures forall f :: f in p <==> f in d && f in fields
    ensures forall f :: f in p ==> p[f] == d[f]
  {
    map f | f in d && f in fields :: d[f]
  }

  function ObjectOf(d: Doc): Json {
    JObject(map f | f in d :: ToJson(d[f]))
  }

  /**
   * `formatAsJSON(corpus, fields, label)`: an object whose one property,
   * named by the label, is the array of projected documents in corpus order.
   */
  function FormatAsJSON(corpus: seq<Doc>, fields: seq<string>, resultLabel: string): Json {
    JObject(map[resultLabel := JArray(seq(|corpus|, i requires 0 <= i < |corpus| => ObjectOf(Project(corpus[i], fields))))])
  }

  /** The value a scalar JSON node stands for. */
  function FromJson(j: Json): Option<Value> {
    match j
    case JNull => Some(Null)
    case JNum(n) => Some(Num(n))
    case JStr(s) => Some(Str(s))
    case _ => None
  }

  predicate FlatObject(j: Json) {
    j.JObject? && forall f :: f in j.members ==> FromJson(j.members[f]).Some?
  }

  function DocOf(j: Json): Option<Doc> {
    if FlatObject(j) then Some(map f | f in j.members :: FromJson(j.members[f]).value) else None
  }

  /** Reads the documents under a label back out of a JSON object, if it has that shape. */
  function ReadJSON(j: Json, resultLabel: string): Option<seq<Doc>> {
    if j.JObject? && resultLabel in j.members && j.members[resultLabel].JArray?
       && forall k :: 0 <= k < |j.members[resultLabel].items| ==> DocOf(j.members[resultLabel].items[k]).Some?
    then
      var items := j.members[resultLabel].items;
      Some(seq(|items|, k requires 0 <= k < |items| => DocOf(items[k]).value))
    else None
  }

  lemma DocRoundTrip(d: Doc)
    ensures DocOf(ObjectOf(d)) == Some(d)
  {
    var j := ObjectOf(d);
    assert j.members.Keys == d.Keys;
    forall f | f in j.members
      ensures FromJson(j.members[f]) == Some(d[f])
    {
      assert j.members[f] == ToJson(d[f]);
      match d[f]
      case Null =>
      case Num(_) =>
      case Str(_) =>
    }
    assert FlatObject(j);
    var back := map f | f in j.members :: FromJson(j.members[f]).value;
    assert DocOf(j) == Some(back);
    assert back.Keys == d.Keys;
    assert forall f | f in back :: back[f] == d[f];
    assert back == d;
  }

  /**
   * JSON round trip: the output has the label as its only property, and
   * reading under that label gives back every document of the corpus,
   * in order, restricted to the requested fields.
   */
  lemma JsonRoundTrip(corpus: seq<Doc>, fields: seq<string>, resultLabel: string)
    ensures FormatAsJSON(corpus, fields, resultLabel).members.Keys == {resultLabel}
    ensures ReadJSON(FormatAsJSON(corpus, fields, resultLabel), resultLabel)
              == Some(seq(|corpus|, i requires 0 <= i < |corpus| => Project(corpus[i], fields)))
  {
    var items := FormatAsJSON(corpus, fields, resultLabel).members[resultLabel].items;
    assert |items| == |corpus|;
    forall k | 0 <= k < |items|
      ensures DocOf(items[k]) == Some(Project(corpus[k], fields))
    {
      assert items[k] == ObjectOf(Project(corpus[k], fields));
      DocRoundTrip(Project(corpus[k], fields));
    }
    var j := FormatAsJSON(corpus, fields, resultLabel);
    var docs := seq(|items|, k requires 0 <= k < |items| => DocOf(items[k]).value);
    assert j.members[resultLabel].items == items;
    assert ReadJSON(j, resultLabel) == Some(docs);
    assert docs == seq(|corpus|, i requires 0 <= i < |corpus| => Project(corpus[i], fields));
  }

  // ---------------------------------------------------------------------
  // Dispatch
  // ---------------------------------------------------------------------

  datatype Strategy = CsvStrategy | JsonStrategy

  /** The available serialisation routines, by format name. */
  const SERIALIZATION_STRATEGIES: map<string, Strategy> := map["csv" := CsvStrategy, "json" := JsonStrategy]

  datatype Output = CsvText(text: string) | JsonDoc(doc: Json)

  datatype FormatError = UnknownFormat(name: string)

  /**
   * `format(format, corpus, fields, label)`: hands the corpus to the routine
   * registered for the format name; a name with no routine is an error.
   */
  function Format(format: string, corpus: seq<Doc>, fields: seq<string>, resultLabel: string): (r: Result<Output, FormatError>)
    ensures format == "csv" ==> r == Ok(CsvText(FormatAsCSV(corpus, fields, resultLabel)))
    ensures format == "json" ==> r == Ok(JsonDoc(FormatAsJSON(corpus, fields, resultLabel)))
    ensures r.Err? <==> format != "csv" && format != "json"
    ensures r.Err? ==> r.error == UnknownFormat(format)
  {
    if format !in SERIALIZATION_STRATEGIES then Err(UnknownFormat(format))
    else match SERIALIZATION_STRATEGIES[format]
      case CsvStrategy => Ok(CsvText(FormatAsCSV(corpus, fields, resultLabel)))
      case JsonStrategy => Ok(JsonDoc(FormatAsJSON(corpus, fields, resultLabel)))
  }

  // ---------------------------------------------------------------------
  // The repository's two formatter cases
  // ---------------------------------------------------------------------

  function TestCorpus(): seq<Doc> {
    [ map["field1" := Num(1), "field2" := Str("test1"), "field3" := Str("dont include me!")],
      map["field1" := Num(2), "field2" := Str("test2"), "field3" := Str("dont include me!")] ]
  }

  /** A two-field projection of a document holding both fields. */
  lemma ProjectPair(d: Doc, a: string, b: string)
    requires a in d && b in d && a != b
    ensures Project(d, [a, b]) == map[a := d[a], b := d[b]]
    ensures ObjectOf(Project(d, [a, b])) == JObject(map[a := ToJson(d[a]), b := ToJson(d[b])])
  {
    var p := Project(d, [a, b]);
    assert p.Keys == {a, b};
    assert p == map[a := d[a], b := d[b]];
    var m := map f | f in p :: ToJson(p[f]);
    assert m.Keys == {a, b};
    assert m == map[a := ToJson(d[a]), b := ToJson(d[b])];
  }

  /** One row of the suite's corpus: a one-digit number bare, then the quoted name. */
  lemma TestRow(d: Doc, n: nat, name: string)
    requires n < 10
    requires Get(d, "field1") == Some(Num(n)) && Get(d, "field2") == Some(Str(name))
    ensures Join(Cells(d, ["field1", "field2"]), ',') == [DigitChar(n)] + ",\"" + name + "\""
  {
    var c := Cells(d, ["field1", "field2"]);
    assert c[0] == [DigitChar(n)];
    assert c[1] == "\"" + name + "\"";
    assert Join(c, ',') == c[0] + [','] + c[1];
  }

  /** The suite's corpus as table lines: the header, then one row per document. */
  lemma TestLines()
    ensures Lines(TestCorpus(), ["field1", "field2"]) == ["field1,field2", "1,\"test1\"", "2,\"test2\""]
  {
    var corpus := TestCorpus();
    var fields := ["field1", "field2"];
    assert Get(corpus[0], "field1") == Some(Num(1)) && Get(corpus[0], "field2") == Some(Str("test1"));
    assert Get(corpus[1], "field1") == Some(Num(2)) && Get(corpus[1], "field2") == Some(Str("test2"));
    TestRow(corpus[0], 1, "test1");
    TestRow(corpus[1], 2, "test2");
    assert DigitChar(1) == '1' && DigitChar(2) == '2';
    assert [DigitChar(1)] + ",\"" + "test1" + "\"" == "1,\"test1\"";
    assert [DigitChar(2)] + ",\"" + "test2" + "\"" == "2,\"test2\"";
    assert fields[1..] == ["field2"];
    assert Join(fields, ',') == "field1" + [','] + "field2";
    assert "field1" + [','] + "field2" == "field1,field2";
    var lines := Lines(corpus, fields);
    assert |lines| == 3 && lines[0] == "field1,field2";
    assert lines[1] == "1,\"test1\"" && lines[2] == "2,\"test2\"";
  }

  /** Joining three lines puts a newline between each pair and none at the end. */
  lemma JoinThree(a: string, b: string, c: string)
    ensures Join([a, b, c], '\n') == a + ['\n'] + (b + ['\n'] + c)
  {
    assert [a, b, c][1..] == [b, c];
    assert [b, c][1..] == [c];
    assert Join([c], '\n') == c;
    assert Join([b, c], '\n') == b + ['\n'] + c;
  }

  /** The suite's corpus written by the CSV routine. */
  lemma TestCsvText()
    ensures FormatAsCSV(TestCorpus(), ["field1", "field2"], "") == "field1,field2\n1,\"test1\"\n2,\"test2\""
  {
    var h, r1, r2 := "field1,field2", "1,\"test1\"", "2,\"test2\"";
    TestLines();
    JoinThree(h, r1, r2);
    assert h + ['\n'] + (r1 + ['\n'] + r2) == "field1,field2\n1,\"test1\"\n2,\"test2\"";
  }

  /** Two fields of three, as CSV: header line, then one line per document, numbers bare and strings quoted. */
  lemma CsvExample()
    ensures Format("csv", TestCorpus(), ["field1", "field2"], "") == Ok(CsvText("field1,field2\n1,\"test1\"\n2,\"test2\""))
  {
    TestCsvText();
  }

  /** The same selection as JSON, labelled `testObjs`: the third field is dropped from both objects. */
  lemma JsonExample()
    ensures Format("json", TestCorpus(), ["field1", "field2"], "testObjs")
              == Ok(JsonDoc(JObject(map["testObjs" := JArray([
                   JObject(map["field1" := JNum(1), "field2" := JStr("test1")]),
                   JObject(map["field1" := JNum(2), "field2" := JStr("test2")])])])))
  {
    var corpus := TestCorpus();
    ProjectPair(corpus[0], "field1", "field2");
    ProjectPair(corpus[1], "field1", "field2");
    var items := seq(|corpus|, i requires 0 <= i < |corpus| => ObjectOf(Project(corpus[i], ["field1", "field2"])));
    assert items == [JObject(map["field1" := JNum(1), "field2" := JStr("test1")]),
                     JObject(map["field1" := JNum(2), "field2" := JStr("test2")])];
  }
}

=== FILE: document_store.dfy ===
/**
 * The collection operations of the document store (find, findOne, update,
 * insert, remove, and the skip/limit options of find), over a collection
 * held as a sequence in natural order. Records of any type are stored; the
 * `view` function gives the document the selectors are evaluated against.
 */
module DocumentStore {
  import opened Base
  import opened Documents

  /** `find(selector)`: every matching record, in collection order. */
  function Find<T(!new)>(rs: seq<T>, view: T -> Doc, sel: Selector): (r: seq<T>)
    ensures |r| <= |rs|
    ensures forall x :: x in r <==> x in rs && Matches(view(x), sel)
    ensures forall i :: 0 <= i < |r| ==> Matches(view(r[i]), sel)
    decreases |rs|
  {
    if |rs| == 0 then []
    else if Matches(view(rs[0]), sel) then [rs[0]] + Find(rs[1..], view, sel)
    else Find(rs[1..], view, sel)
  }

  /**
   * Find keeps collection order and multiplicity: a record appended to the
   * collection is appended to the result exactly when it matches.
   */
  lemma {:induction false} FindAppend<T(!new)>(rs: seq<T>, x: T, view: T -> Doc, sel: Selector)
    ensures Find(rs + [x], view, sel) == Find(rs, view, sel) + (if Matches(view(x), sel) then [x] else [])
    decreases |rs|
  {
    if |rs| == 0 {
      assert rs + [x] == [x];
      assert [x][1..] == [];
    } else {
      assert (rs + [x])[1..] == rs[1..] + [x];
      FindAppend(rs[1..], x, view, sel);
    }
  }

  /** `remove(selector)`: keep exactly the records that do not match, in order. */
  function RemoveMatching<T(!new)>(rs: seq<T>, view: T -> Doc, sel: Selector): (r: seq<T>)
    ensures |r| <= |rs|
    ensures forall x :: x in r <==> x in rs && !Matches(view(x), sel)
    decreases |rs|
  {
    if |rs| == 0 then []
    else if Matches(view(rs[0]), sel) then RemoveMatching(rs[1..], view, sel)
    else [rs[0]] + RemoveMatching(rs[1..], view, sel)
  }

  /** `findOne(selector)`: the first matching record, or null. */
  function FindFirst<T>(rs: seq<T>, view: T -> Doc, sel: Selector): (r: Option<nat>)
    ensures r.Some? ==> r.value < |rs| && Matches(view(rs[r.value]), sel)
    ensures r.Some? ==> forall j :: 0 <= j < r.value ==> !Matches(view(rs[j]), sel)
    ensures r.None? <==> forall j :: 0 <= j < |rs| ==> !Matches(view(rs[j]), sel)
    decreases |rs|
  {
    if |rs| == 0 then None
    else if Matches(view(rs[0]), sel) then Some(0)
    else match FindFirst(rs[1..], view, sel)
      case None => None
      case Some(i) => Some(i + 1)
  }

  /**
   * `update(selector, doc, {upsert})` without `multi`: the first matching
   * record is replaced by `doc`; when none matches, `doc` is appended if
   * `upsert` is set and the collection is unchanged otherwise.
   */
  function UpdateFirst<T>(rs: seq<T>, view: T -> Doc, sel: Selector, doc: T, upsert: bool): (r: seq<T>)
    ensures FindFirst(rs, view, sel).Some? ==>
              var i := FindFirst(rs, view, sel).value;
              |r| == |rs| && r[i] == doc && forall j :: 0 <= j < |rs| && j != i ==> r[j] == rs[j]
    ensures FindFirst(rs, view, sel).None? ==> r == if upsert then rs + [doc] else rs
  {
    match FindFirst(rs, view, sel)
    case Some(i) => rs[i := doc]
    case None => if upsert then rs + [doc] else rs
  }

  /**
   * The `{skip, limit}` options of `find`: drop the first `skip` results,
   * then keep at most `limit` of them; a limit of 0 means no limit.
   */
  function Page<T>(rs: seq<T>, skip: nat, limit: nat): (r: seq<T>)
  {
    var rest := if skip <= |rs| then rs[skip..] else [];
    if limit == 0 || |rest| <= limit then rest else rest[..limit]
  }

  /**
   * A page with a positive limit holds at most `limit` results (a limit of 0
   * means no limit), each the result at its position after the skipped ones.
   */
  lemma PageBounds<T>(rs: seq<T>, skip: nat, limit: nat)
    ensures limit > 0 ==> |Page(rs, skip, limit)| <= limit
    ensures skip + |Page(rs, skip, limit)| <= |rs| || Page(rs, skip, limit) == []
    ensures forall i :: 0 <= i < |Page(rs, skip, limit)| ==> Page(rs, skip, limit)[i] == rs[skip + i]
  {
  }

  /**
   * Paging is seamless: a page of `n` followed by the page that starts
   * where it ended is the single page of `n + m`, so walking a result set
   * with `offset += limit` visits every result once, in order.
   */
  lemma PagesConcatenate<T>(rs: seq<T>, skip: nat, n: nat, m: nat)
    requires n > 0 && m > 0
    ensures Page(rs, skip, n) + Page(rs, skip + n, m) == Page(rs, skip, n + m)
  {
    if skip + n <= |rs| {
      assert rs[skip..][..n] == rs[skip..skip + n];
      if skip + n + m <= |rs| {
        assert rs[skip + n..][..m] == rs[skip + n..skip + n + m];
        assert rs[skip..][..n + m] == rs[skip..skip + n + m];
        assert rs[skip..skip + n] + rs[skip + n..skip + n + m] == rs[skip..skip + n + m];
      } else {
        assert rs[skip..skip + n] + rs[skip + n..] == rs[skip..];
      }
    }
  }

  /** Find and RemoveMatching split a collection: every record goes to exactly one side. */
  lemma {:induction false} FindRemovePartition<T(!new)>(rs: seq<T>, view: T -> Doc, sel: Selector)
    ensures |Find(rs, view, sel)| + |RemoveMatching(rs, view, sel)| == |rs|
    ensures multiset(Find(rs, view, sel)) + multiset(RemoveMatching(rs, view, sel)) == multiset(rs)
    decreases |rs|
  {
    if |rs| > 0 {
      FindRemovePartition(rs[1..], view, sel);
      assert rs == [rs[0]] + rs[1..];
    }
  }
}

=== FILE: documents.dfy ===
/** The optional value and the success-or-error outcome used across the model. */
module Base {

  datatype Option<+T> = None | Some(value: T) {
    function GetOr(default: T): T {
      match this
      case Some(v) => v
      case None => default
    }
  }

  datatype Result<+T, +E> = Ok(value: T) | Err(error: E)
}

/**
 * Documents as the document store sees them, and the meaning of a selector.
 *
 * A document is a flat map from field names to scalars; timestamps are
 * stored as millisecond numbers. A selector maps a field either to a plain
 * value (`{email: e}`) or to an object of comparison operators
 * (`{amount: {$gte: 1, $lte: 5000}}`), and a document matches when every
 * field of the selector is satisfied.
 */
module Documents {
  import opened Base

  datatype Value = Null | Num(n: int) | Str(s: string)

  type Doc = map<string, Value>

  /** The comparison operators a selector may use: `$eq`, `$gt`, `$gte`, `$lt`, `$lte`. */
  datatype Op = Eq | Gt | Gte | Lt | Lte

  /** An operator object such as `{$gte: 1, $lte: 5000}`. */
  type Constraint = map<Op, Value>

  datatype Cond = Is(v: Value) | Ops(c: Constraint)

  type Selector = map<string, Cond>

  function Get(d: Doc, field: string): Option<Value> {
    if field in d then Some(d[field]) else None
  }

  /** Equality as the store applies it: an absent field equals null. */
  predicate Equal(actual: Option<Value>, v: Value) {
    match actual
    case None => v == Null
    case Some(a) => a == v
  }

  /** Order comparisons hold only between two numbers. */
  predicate Holds(actual: Option<Value>, op: Op, v: Value) {
    match op
    case Eq => Equal(actual, v)
    case Gt => actual.Some? && actual.value.Num? && v.Num? && actual.value.n > v.n
    case Gte => actual.Some? && actual.value.Num? && v.Num? && actual.value.n >= v.n
    case Lt => actual.Some? && actual.value.Num? && v.Num? && actual.value.n < v.n
    case Lte => actual.Some? && actual.value.Num? && v.Num? && actual.value.n <= v.n
  }

  predicate Satisfies(actual: Option<Value>, cond: Cond) {
    match cond
    case Is(v) => Equal(actual, v)
    case Ops(c) => forall op :: op in c ==> Holds(actual, op, c[op])
  }

  predicate Matches(d: Doc, sel: Selector) {
    forall field :: field in sel ==> Satisfies(Get(d, field), sel[field])
  }
}

=== FILE: text.dfy ===
/**
 * String helpers for serialisation: joining and splitting on a separator,
 * and decimal rendering and parsing of integers.
 */
module Text {
  import opened Base

  /** `parts.join(sep)`. */
  function Join(parts: seq<string>, sep: char): string
    decreases |parts|
  {
    if |parts| == 0 then ""
    else if |parts| == 1 then parts[0]
    else parts[0] + [sep] + Join(parts[1..], sep)
  }

  /** `s.split(sep)`: the pieces between separators; there is always at least one. */
  function Split(s: string, sep: char): (r: seq<string>)
    ensures |r| > 0
    decreases |s|
  {
    if |s| == 0 then [""]
    else
      var rest := Split(s[1..], sep);
      if s[0] == sep then [""] + rest else [[s[0]] + rest[0]] + rest[1..]
  }

  lemma {:induction false} SplitWithoutSep(p: string, sep: char)
    requires sep !in p
    ensures Split(p, sep) == [p]
    decreases |p|
  {
    if |p| > 0 {
      SplitWithoutSep(p[1..], sep);
      assert [p[0]] + p[1..] == p;
    }
  }

  lemma {:induction false} SplitAtFirstSep(p: string, sep: char, t: string)
    requires sep !in p
    ensures Split(p + [sep] + t, sep) == [p] + Split(t, sep)
    decreases |p|
  {
    if |p| == 0 {
      assert p + [sep] + t == [sep] + t;
      assert ([sep] + t)[1..] == t;
    } else {
      assert (p + [sep] + t)[1..] == p[1..] + [sep] + t;
      SplitAtFirstSep(p[1..], sep, t);
      assert [p[0]] + p[1..] == p;
    }
  }

  /** Splitting undoes joining when no part contains the separator and there is at least one part. */
  lemma {:induction false} SplitJoin(parts: seq<string>, sep: char)
    requires |parts| > 0
    requires forall i :: 0 <= i < |parts| ==> sep !in parts[i]
    ensures Split(Join(parts, sep), sep) == parts
    decreases |parts|
  {
    if |parts| == 1 {
      SplitWithoutSep(parts[0], sep);
    } else {
      SplitJoin(parts[1..], sep);
      SplitAtFirstSep(parts[0], sep, Join(parts[1..], sep));
      assert [parts[0]] + parts[1..] == parts;
    }
  }

  /** A character absent from every part and different from the separator is absent from the joined string. */
  lemma {:induction false} JoinAvoids(parts: seq<string>, sep: char, c: char)
    requires c != sep
    requires forall i :: 0 <= i < |parts| ==> c !in parts[i]
    ensures c !in Join(parts, sep)
    decreases |parts|
  {
    if |parts| > 1 {
      JoinAvoids(parts[1..], sep, c);
      assert parts[0] + [sep] + Join(parts[1..], sep) == parts[0] + ([sep] + Join(parts[1..], sep));
    }
  }

  predicate IsDigit(c: char) {
    '0' <= c <= '9'
  }

  predicate IsDigits(s: string) {
    |s| > 0 && forall i :: 0 <= i < |s| ==> IsDigit(s[i])
  }

  function DigitChar(d: nat): (c: char)
    requires d < 10
    ensures IsDigit(c) && DigitValue(c) == d
  {
    ('0' as int + d) as char
  }

  /** Decimal digits of `n`, most significant first, without leading zeros. */
  function NatToString(n: nat): (r: string)
    ensures IsDigits(r)
    decreases n
  {
    if n < 10 then [DigitChar(n)] else NatToString(n / 10) + [DigitChar(n % 10)]
  }

  /** `String(i)` for an integer: a minus sign before the digits of a negative number. */
  function IntToString(i: int): string {
    if i < 0 then "-" + NatToString(-i) else NatToString(i)
  }

  function DigitValue(c: char): (d: nat)
    requires IsDigit(c)
    ensures d < 10
  {
    c as int - '0' as int
  }

  function DigitsValue(s: string): nat
    requires forall i :: 0 <= i < |s| ==> IsDigit(s[i])
    decreases |s|
  {
    if |s| == 0 then 0
    else
      assert IsDigit(s[|s| - 1]);
      DigitsValue(s[..|s| - 1]) * 10 + DigitValue(s[|s| - 1])
  }

  /** Decimal integer with an optional leading minus sign; anything else is unreadable. */
  function ParseInt(s: string): Option<int> {
    if |s| > 0 && s[0] == '-' && IsDigits(s[1..]) then Some(0 - DigitsValue(s[1..]) as int)
    else if IsDigits(s) then Some(DigitsValue(s))
    else None
  }

  lemma {:induction false} NatRoundTrip(n: nat)
    ensures DigitsValue(NatToString(n)) == n
    decreases n
  {
    if n >= 10 {
      NatRoundTrip(n / 10);
      var s := NatToString(n);
      assert s[..|s| - 1] == NatToString(n / 10);
    }
  }

  /** Parsing the rendering of an integer gives the integer back. */
  lemma IntRoundTrip(i: int)
    ensures ParseInt(IntToString(i)) == Some(i)
  {
    if i < 0 {
      NatRoundTrip(-i);
      assert IntToString(i)[1..] == NatToString(-i);
    } else {
      NatRoundTrip(i);
    }
  }

  /** A rendered integer holds only digits and possibly a leading minus sign. */
  lemma IntToStringChars(i: int)
    ensures |IntToString(i)| > 0
    ensures forall k :: 0 <= k < |IntToString(i)| ==> IsDigit(IntToString(i)[k]) || IntToString(i)[k] == '-'
    ensures IntToString(i)[0] != '"'
  {
  }
}

=== FILE: tracer_db_facade.dfy ===
/**
 * Queries against the political finance records database.
 *
 * An abstract Query (target collection, parameters, pagination) is turned
 * into a store selector plus `{skip, limit}` options, using a per-collection
 * whitelist that maps each allowed parameter to the document field it
 * constrains and the operator it applies. The query then runs against the
 * named collection and its results are streamed to the `onNext` callback,
 * followed by `onEnd`, or by `onError` if anything fails.
 */
module TracerDbFacade {
  import opened Base
  import opened Documents
  import opened DocumentStore

  /** One whitelist entry: `{dbField: 'amount', queryOp: '$gte'}`; no queryOp means equality. */
  datatype FieldEntry = FieldEntry(dbField: string, queryOp: Option<Op>)

  /** Allowed parameters of one collection. */
  type FieldIndex = map<string, FieldEntry>

  /** `ALLOWED_FIELDS`: collection name to its allowed parameters. */
  type Whitelist = map<string, FieldIndex>

  /** The behavioural constants the facade reads: `ALLOWED_FIELDS` and `DEFAULT_RESULT_LIMIT`. */
  datatype Config = Config(allowedFields: Whitelist, defaultResultLimit: nat)

  /** A query parameter `name: value`; parameters are kept in the order the caller listed them. */
  type Param = (string, Value)

  datatype Query = Query(targetCollection: string, params: seq<Param>, offset: Option<nat>, resultLimit: Option<nat>)

  datatype Options = Options(skip: nat, limit: nat)

  datatype FindRequest = FindRequest(collection: string, selector: Selector, options: Options)

  datatype QueryError = UnknownCollection(collection: string) | UnknownField(param: string)

  /** The operator a whitelist entry applies; equality when it names none. */
  function OpOf(e: FieldEntry): Op {
    match e.queryOp
    case None => Eq
    case Some(op) => op
  }

  /** Parameter `p` is whitelisted and writes operator `op` of field `field`. */
  predicate Targets(index: FieldIndex, p: Param, field: string, op: Op) {
    p.0 in index && index[p.0].dbField == field && OpOf(index[p.0]) == op
  }

  predicate AllKnown(index: FieldIndex, params: seq<Param>) {
    forall i :: 0 <= i < |params| ==> params[i].0 in index
  }

  /**
   * Reference meaning of a parameter list: the value written to operator
   * `op` of `field` is that of the last parameter targeting them.
   */
  function LastValue(index: FieldIndex, params: seq<Param>, field: string, op: Op): Option<Value>
    decreases |params|
  {
    if |params| == 0 then None
    else if Targets(index, params[|params| - 1], field, op) then Some(params[|params| - 1].1)
    else LastValue(index, params[..|params| - 1], field, op)
  }

  /** The value a selector puts on operator `op` of `field`, if any. */
  function ConstraintOf(sel: Selector, field: string, op: Op): Option<Value> {
    if field in sel && sel[field].Ops? && op in sel[field].c then Some(sel[field].c[op]) else None
  }

  /** Set operator `op` of `field` to `v`, keeping the operators already set on that field. */
  function Merge(sel: Selector, field: string, op: Op, v: Value): (r: Selector)
    ensures forall f, o :: ConstraintOf(r, f, o) == if f == field && o == op then Some(v) else ConstraintOf(sel, f, o)
    ensures r.Keys == sel.Keys + {field}
    ensures r[field].Ops? && op in r[field].c
    ensures forall f :: f in sel && f != field ==> r[f] == sel[f]
  {
    var c := if field in sel && sel[field].Ops? then sel[field].c else map[];
    sel[field := Ops(c[op := v])]
  }

  /**
   * The selector for `params`, built parameter by parameter: each one
   * merges `{queryOp: value}` into the constraint of its `dbField`, so two
   * parameters on one field with different operators share one constraint
   * object. It fails at the first parameter that is not whitelisted.
   */
  function BuildSelector(index: FieldIndex, params: seq<Param>): (r: Result<Selector, QueryError>)
    ensures r.Ok? <==> AllKnown(index, params)
    ensures r.Err? ==> exists k :: 0 <= k < |params| && params[k].0 !in index && r.error == UnknownField(params[k].0)
    ensures r.Ok? ==> forall field, op :: ConstraintOf(r.value, field, op) == LastValue(index, params, field, op)
    ensures r.Ok? ==> forall field :: field in r.value ==> r.value[field].Ops? && r.value[field].c != map[]
    decreases |params|
  {
    if |params| == 0 then Ok(map[])
    else
      var last := params[|params| - 1];
      match BuildSelector(index, params[..|params| - 1])
      case Err(e) => Err(e)
      case Ok(sel) =>
        if last.0 !in index then Err(UnknownField(last.0))
        else Ok(Merge(sel, index[last.0].dbField, OpOf(index[last.0]), last.1))
  }

  /** A value recorded for `(field, op)` comes from some parameter that targets them. */
  lemma {:induction false} LastValueSource(index: FieldIndex, params: seq<Param>, field: string, op: Op)
    requires LastValue(index, params, field, op).Some?
    ensures exists i :: 0 <= i < |params| && Targets(index, params[i], field, op)
                        && params[i].1 == LastValue(index, params, field, op).value
    decreases |params|
  {
    var n := |params| - 1;
    if !Targets(index, params[n], field, op) {
      LastValueSource(index, params[..n], field, op);
      var i :| 0 <= i < n && Targets(index, params[..n][i], field, op)
               && params[..n][i].1 == LastValue(index, params[..n], field, op).value;
      assert params[..n][i] == params[i];
    }
  }

  /** Every parameter contributes: its `(dbField, op)` pair is constrained by the selector. */
  lemma {:induction false} LastValueCovers(index: FieldIndex, params: seq<Param>, i: int)
    requires 0 <= i < |params| && params[i].0 in index
    ensures LastValue(index, params, index[params[i].0].dbField, OpOf(index[params[i].0])).Some?
    decreases |params|
  {
    var n := |params| - 1;
    var e := index[params[i].0];
    if i < n && !Targets(index, params[n], e.dbField, OpOf(e)) {
      assert params[..n][i] == params[i];
      LastValueCovers(index, params[..n], i);
    }
  }

  /**
   * The security boundary: every selector field is the `dbField` of a
   * whitelisted parameter, and every parameter's field is constrained.
   */
  lemma SelectorWithinWhitelist(index: FieldIndex, params: seq<Param>)
    requires BuildSelector(index, params).Ok?
    ensures forall field :: field in BuildSelector(index, params).value ==>
              exists p :: p in index && index[p].dbField == field
    ensures forall i :: 0 <= i < |params| ==> index[params[i].0].dbField in BuildSelector(index, params).value
  {
    var sel := BuildSelector(index, params).value;
    forall field | field in sel
      ensures exists p :: p in index && index[p].dbField == field
    {
      var op :| op in sel[field].c;
      assert ConstraintOf(sel, field, op).Some?;
      LastValueSource(index, params, field, op);
      var i :| 0 <= i < |params| && Targets(index, params[i], field, op)
               && params[i].1 == LastValue(index, params, field, op).value;
      assert params[i].0 in index && index[params[i].0].dbField == field;
    }
    forall i | 0 <= i < |params|
      ensures index[params[i].0].dbField in sel
    {
      LastValueCovers(index, params, i);
      assert ConstraintOf(sel, index[params[i].0].dbField, OpOf(index[params[i].0])).Some?;
    }
  }

  /**
   * `executeQuery`'s translation half: the selector and options for the
   * query, or the reason it is refused. Offset defaults to 0 and the result
   * limit to `DEFAULT_RESULT_LIMIT`; supplied values pass through.
   */
  function TranslateQuery(cfg: Config, q: Query): (r: Result<FindRequest, QueryError>)
    ensures q.targetCollection !in cfg.allowedFields ==> r == Err(UnknownCollection(q.targetCollection))
    ensures r.Ok? <==> q.targetCollection in cfg.allowedFields && AllKnown(cfg.allowedFields[q.targetCollection], q.params)
    ensures r.Ok? ==> r.value.collection == q.targetCollection
    ensures r.Ok? ==> r.value.options.skip == (if q.offset.Some? then q.offset.value else 0)
    ensures r.Ok? ==> r.value.options.limit == (if q.resultLimit.Some? then q.resultLimit.value else cfg.defaultResultLimit)
    ensures r.Ok? ==> BuildSelector(cfg.allowedFields[q.targetCollection], q.params) == Ok(r.value.selector)
    ensures r.Err? && q.targetCollection in cfg.allowedFields ==>
              r.error.UnknownField? && exists k :: 0 <= k < |q.params| && q.params[k].0 == r.error.param
                                                   && r.error.param !in cfg.allowedFields[q.targetCollection]
  {
    if q.targetCollection !in cfg.allowedFields then Err(UnknownCollection(q.targetCollection))
    else
      match BuildSelector(cfg.allowedFields[q.targetCollection], q.params)
      case Err(e) => Err(e)
      case Ok(sel) =>
        Ok(FindRequest(q.targetCollection, sel, Options(q.offset.GetOr(0), q.resultLimit.GetOr(cfg.defaultResultLimit))))
  }

  /**
   * The security boundary of translation: an accepted query's selector
   * constrains only fields the target collection's whitelist names.
   */
  lemma TranslateWithinWhitelist(cfg: Config, q: Query)
    requires TranslateQuery(cfg, q).Ok?
    ensures var index := cfg.allowedFields[q.targetCollection];
            forall field :: field in TranslateQuery(cfg, q).value.selector ==>
              exists p :: p in index && index[p].dbField == field
  {
    SelectorWithinWhitelist(cfg.allowedFields[q.targetCollection], q.params);
  }

  /** A read failure reported by the store's result stream after `delivered` records. */
  datatype Fault = Fault(delivered: nat, message: string)

  datatype Failure = Refused(reason: QueryError) | ReadFailed(message: string)

  /** The callbacks in the order they are invoked: `onNext(doc)`, `onEnd()`, `onError(failure)`. */
  datatype Event = Next(doc: Doc) | End | Error(failure: Failure)

  /** What one call did: the find request issued to the store (if any) and the callbacks fired. */
  datatype Execution = Execution(request: Option<FindRequest>, events: seq<Event>)

  /** The finance records database: collection name to its documents in natural order. */
  type RecordsDb = map<string, seq<Doc>>

  function Collection(db: RecordsDb, name: string): seq<Doc> {
    if name in db then db[name] else []
  }

  /** The documents a find request returns: the matches, in order, after skip and limit. */
  function Results(db: RecordsDb, req: FindRequest): seq<Doc> {
    Page(Find(Collection(db, req.collection), d => d, req.selector), req.options.skip, req.options.limit)
  }

  function Deliver(docs: seq<Doc>): (r: seq<Event>)
    ensures |r| == |docs|
    ensures forall i :: 0 <= i < |docs| ==> r[i] == Next(docs[i])
  {
    seq(|docs|, i requires 0 <= i < |docs| => Next(docs[i]))
  }

  /** The records passed to `onNext`, in order. */
  function Delivered(events: seq<Event>): seq<Doc>
    decreases |events|
  {
    if |events| == 0 then []
    else if events[0].Next? then [events[0].doc] + Delivered(events[1..])
    else Delivered(events[1..])
  }

  /**
   * `executeQuery(query, onNext, onEnd, onError)`. A refused query reaches
   * only `onError` and issues no request. Otherwise each result goes to
   * `onNext` in order and then `onEnd` runs, unless the stream reports a
   * read failure, in which case `onError` runs instead of `onEnd`.
   */
  function ExecuteQuery(cfg: Config, db: RecordsDb, q: Query, fault: Option<Fault>): (r: Execution)
    ensures var t := TranslateQuery(cfg, q);
            && (t.Err? ==> r == Execution(None, [Error(Refused(t.error))]))
            && (t.Ok? ==> r.request == Some(t.value))
            && (t.Ok? && fault.None? ==> r.events == Deliver(Results(db, t.value)) + [End])
  {
    match TranslateQuery(cfg, q)
    case Err(e) => Execution(None, [Error(Refused(e))])
    case Ok(req) =>
      var docs := Results(db, req);
      match fault
      case None => Execution(Some(req), Deliver(docs) + [End])
      case Some(f) =>
        var k := if f.delivered <= |docs| then f.delivered else |docs|;
        Execution(Some(req), Deliver(docs[..k]) + [Error(ReadFailed(f.message))])
  }

  lemma {:induction false} DeliveredDeliver(docs: seq<Doc>, last: Event)
    requires !last.Next?
    ensures Delivered(Deliver(docs) + [last]) == docs
    decreases |docs|
  {
    if |docs| > 0 {
      assert (Deliver(docs) + [last])[1..] == Deliver(docs[1..]) + [last];
      DeliveredDeliver(docs[1..], last);
      assert docs == [docs[0]] + docs[1..];
    } else {
      assert Deliver(docs) + [last] == [last];
    }
  }

  /**
   * The records handed to `onNext` are the store's results in order, all
   * from the target collection and all matching the selector; `onEnd` runs
   * exactly when no error was reported.
   */
  lemma ExecuteQueryDelivers(cfg: Config, db: RecordsDb, q: Query, fault: Option<Fault>)
    requires TranslateQuery(cfg, q).Ok?
    ensures var r := ExecuteQuery(cfg, db, q, fault);
            var docs := Results(db, r.request.value);
            && (fault.None? ==> Delivered(r.events) == docs)
            && (fault.Some? ==> Delivered(r.events) <= docs)
            && (forall d :: d in Delivered(r.events) ==>
                  d in Collection(db, q.targetCollection) && Matches(d, r.request.value.selector))
            && (End in r.events <==> fault.None?)
  {
    var req := TranslateQuery(cfg, q).value;
    var r := ExecuteQuery(cfg, db, q, fault);
    assert r.request == Some(req);
    var docs := Results(db, req);
    var found := Find(Collection(db, req.collection), d => d, req.selector);
    PageBounds(found, req.options.skip, req.options.limit);
    assert forall d :: d in docs ==> d in found;
    match fault
    case None =>
      DeliveredDeliver(docs, End);
    case Some(f) =>
      var k := if f.delivered <= |docs| then f.delivered else |docs|;
      DeliveredDeliver(docs[..k], Error(ReadFailed(f.message)));
      assert r.events == Deliver(docs[..k]) + [Error(ReadFailed(f.message))];
      assert End !in r.events;
  }

  /**
   * The callback protocol: zero or more `onNext` calls followed by exactly
   * one final callback, which is `onEnd` precisely when the query was
   * accepted and the stream reported no error, and `onError` otherwise.
   */
  lemma CallbackProtocol(cfg: Config, db: RecordsDb, q: Query, fault: Option<Fault>)
    ensures var ev := ExecuteQuery(cfg, db, q, fault).events;
            && |ev| > 0
            && (forall i :: 0 <= i < |ev| - 1 ==> ev[i].Next?)
            && !ev[|ev| - 1].Next?
            && (ev[|ev| - 1].End? <==> TranslateQuery(cfg, q).Ok? && fault.None?)
            && (TranslateQuery(cfg, q).Err? ==> ev == [Error(Refused(TranslateQuery(cfg, q).error))])
  {
    var r := ExecuteQuery(cfg, db, q, fault);
    if TranslateQuery(cfg, q).Ok? {
      var docs := Results(db, TranslateQuery(cfg, q).value);
      match fault
      case None =>
        assert r.events == Deliver(docs) + [End];
      case Some(f) =>
        var k := if f.delivered <= |docs| then f.delivered else |docs|;
        assert r.events == Deliver(docs[..k]) + [Error(ReadFailed(f.message))];
    }
  }

  /** The whitelist and default limit the facade's own tests install. */
  function TestConfig(): Config {
    Config(map["test_collection" := map[
                 "minAmount" := FieldEntry("amount", Some(Gte)),
                 "maxAmount" := FieldEntry("amount", Some(Lte)),
                 "name" := FieldEntry("name", None)]],
           50)
  }

  /** Two parameters on the same field with `$gte` and `$lte` merge into one range constraint, with default paging. */
  lemma RangeParamsMerge(lo: int, hi: int)
    ensures TranslateQuery(TestConfig(), Query("test_collection", [("minAmount", Num(lo)), ("maxAmount", Num(hi))], None, None))
         == Ok(FindRequest("test_collection", map["amount" := Ops(map[Gte := Num(lo), Lte := Num(hi)])], Options(0, 50)))
  {
    var index := TestConfig().allowedFields["test_collection"];
    var params := [("minAmount", Num(lo)), ("maxAmount", Num(hi))];
    assert params[..1] == [("minAmount", Num(lo))];
    assert params[..1][..0] == [];
    var empty: Selector := map[];
    assert BuildSelector(index, params[..1][..0]) == Ok(empty);
    var one := Merge(empty, "amount", Gte, Num(lo));
    assert one == map["amount" := Ops(map[Gte := Num(lo)])];
    assert BuildSelector(index, params[..1]) == Ok(one);
    var two := Merge(one, "amount", Lte, Num(hi));
    assert two == map["amount" := Ops(map[Gte := Num(lo)][Lte := Num(hi)])];
    assert map[Gte := Num(lo)][Lte := Num(hi)] == map[Gte := Num(lo), Lte := Num(hi)];
    assert BuildSelector(index, params) == Ok(two);
  }

  /** A parameter whose entry names no operator becomes an `$eq` constraint. */
  lemma EqualityParamWrapped(name: string)
    ensures TranslateQuery(TestConfig(), Query("test_collection", [("name", Str(name))], None, None))
         == Ok(FindRequest("test_collection", map["name" := Ops(map[Eq := Str(name)])], Options(0, 50)))
  {
    var index := TestConfig().allowedFields["test_collection"];
    var params := [("name", Str(name))];
    assert params[..0] == [];
    var empty: Selector := map[];
    assert BuildSelector(index, params[..0]) == Ok(empty);
    assert OpOf(index["name"]) == Eq;
    assert Merge(empty, "name", Eq, Str(name)) == map["name" := Ops(map[Eq := Str(name)])];
    assert BuildSelector(index, params) == Ok(map["name" := Ops(map[Eq := Str(name)])]);
  }

  /** The range selector matches exactly the documents whose amount lies in `[lo, hi]`. */
  lemma RangeSelectorMeaning(d: Doc, lo: int, hi: int)
    ensures Matches(d, map["amount" := Ops(map[Gte := Num(lo), Lte := Num(hi)])])
        <==> "amount" in d && d["amount"].Num? && lo <= d["amount"].n <= hi
  {
    var sel := map["amount" := Ops(map[Gte := Num(lo), Lte := Num(hi)])];
    if "amount" in d && d["amount"].Num? && lo <= d["amount"].n <= hi {
      assert Satisfies(Get(d, "amount"), sel["amount"]);
    }
    if Matches(d, sel) {
      assert "amount" in sel;
      var c := map[Gte := Num(lo), Lte := Num(hi)];
      assert Satisfies(Get(d, "amount"), Ops(c));
      assert Gte in c && Lte in c;
      assert Holds(Get(d, "amount"), Gte, Num(lo));
    }
  }
}
